=== FILE: README.md ===
# cach-proxy core, modelled in Dafny

A model of the caching HTTP forward proxy `cach-proxy`. It covers three parts:

- **LRU cache** (`src/cache.c`). A fixed arena of `CACHE_SIZE` (100) entries threaded on a doubly linked recency list. The list runs from `head` (most recent) to `tail` (least recent). Entries carry an absolute expiry time.
  - `cache_find` returns an unexpired entry with the key and moves it to the front.
  - `cache_add` works in order. It reaps expired entries, takes the lowest free slot (or evicts the tail), copies key (truncated to 255 characters), payload and expiry, and moves the slot to the front.
  - `cache_remove_expired` walks the list and unlinks and frees every expired entry.
- **Work queue** (`src/thread_pool.c`). A circular buffer of client sockets that starts with 16 cells and doubles when full.
  - `enqueue` appends.
  - `dequeue` returns the oldest socket, waits on an empty queue, or returns -1 once the pool is stopped.
  - `thread_function` is the worker loop.
- **Request handler** (`src/proxy.c`).
  - `extract_url` reads `method url protocol` with `sscanf`.
  - `handle_client` does the rest of the request:
    - it receives the request and looks the URL up in the cache;
    - on a hit it answers from the cache;
    - on a miss it splits the URL into host and path (the absolute Request-URI of section 5.1.2 of RFC 1945), resolves the host and connects;
    - it sends an HTTP/1.0 request (a Request-Line as in section 5.1 of RFC 1945, with `Host` and `Connection: close` headers) and relays the response to the client chunk by chunk;
    - finally it stores the response for an hour.

## How the model is built

**Cache.** The cache is an arena: a `seq<Slot>` whose `prev`/`next`/`head`/`tail` are `Option<nat>` slot indices. The representation invariant `Linked(c, ord)` ties the arena to an abstract recency order `ord`. That order is a ghost sequence of distinct slot indices. It says four things:
- the listed slots are exactly the slots holding data;
- free slots have no links;
- neighbouring links agree both ways;
- `head`/`tail` are the ends of `ord`.

Every operation is then described by what it does to `ord`:
- a hit promotes the entry to the front (`Promote`);
- reaping keeps the unexpired entries in order (`Survivors`);
- adding puts the new slot in front of the survivors, or rotates the evicted tail to the front.

**Queue.** The queue is refined to the abstract sequence `Elems(p)` of queued sockets.

**Handler.** The handler is a pure function from the cache and an `Io` record to the new cache and the list of effects (`SendClient`, `SendOrigin`, `CloseClient`, `CloseOrigin`). `Io` holds everything the environment answers: received bytes, clock readings, DNS and connect outcomes, the origin's chunks, and whether the payload copy is allocated.

**The source as written.** Where the C code does something its design evidently does not intend, both versions are modelled:
- `LruCacheAsWritten`, `WorkQueueAsWritten` and `Request.ExtractUrlAsWritten` follow the source line by line;
- `LruCache`, `WorkQueue` and `Request.ExtractUrl` are the corrected definitions;
- the handler is built on the corrected definitions.

See "## Findings".

## Model

| member | source | states |
|---|---|---|
| LruCache.Init | src/cache.c:3-21 | a fresh cache has `CACHE_SIZE` slots, all free, with no head and no tail |
| CacheIntegrity.InitLinked | src/cache.c:10-17 | the zeroed cache satisfies the list invariant with the empty recency order |
| CacheIntegrity.LiveBound | includes/cache.h:10-11 | a well-linked cache never lists more entries than it has slots |
| LruCache.Relink | src/cache.c:96-105 | moving an entry to the front makes it the head and changes no key, payload or expiry of any slot |
| CacheIntegrity.RelinkMember | src/cache.c:42-52 | moving the entry at position `p` of the recency order to the front keeps the list well linked, with that entry promoted and the others in their old order |
| LruCache.Scan | src/cache.c:37-38 | a slot the walk returns has the requested key and has not expired |
| CacheIntegrity.ScanIsFirstHit | src/cache.c:37-38 | on a well-linked list the bounded walk returns exactly the first entry in recency order with the key that has not expired |
| LruCache.Find | src/cache.c:35-61 | a hit has the key and is unexpired, becomes the head, and no slot's contents change; a miss leaves the cache exactly as it was |
| CacheIntegrity.FindLinked | src/cache.c:35-61 | a lookup returns the most recently used live entry for the key (or misses when there is none, changing nothing), and a hit leaves the list well linked with that entry promoted |
| LruCache.Unlink | src/cache.c:120-126 | removing an entry frees only its payload; keys, expiries and all other payloads stay |
| CacheIntegrity.UnlinkMember | src/cache.c:120-123 | unlinking the entry at position `p` keeps the list well linked with that entry removed from the order, head and tail repaired |
| LruCache.Reap | src/cache.c:115-129 | the reaping walk never changes a key or an expiry, only releases payloads, and never touches an unexpired entry's payload |
| CacheIntegrity.ReapIsWalk | src/cache.c:115-129 | on a well-linked list the bounded walk (which reads the successor before unlinking) unlinks exactly the expired entries, one at a time |
| LruCache.RemoveExpired | src/cache.c:111-131 | reaping keeps every unexpired payload and otherwise only frees; keys and expiries stay |
| CacheIntegrity.RemoveExpiredLinked | src/cache.c:111-131 | after reaping the list is well linked and its order is the old order with the expired entries dropped |
| CacheIntegrity.RemoveExpiredExact | src/cache.c:115-127 | after reaping a slot holds data exactly when it held data before and has not expired |
| LruCache.Survivors | src/cache.c:115-129 | the reference order after reaping holds exactly the listed entries that have not expired |
| LruCache.FirstFree | src/cache.c:69-74 | the slot chosen is free and every slot before it holds data; no result means every slot holds data |
| CacheIntegrity.FullListed | src/cache.c:76-80 | when no slot is free on a well-linked cache, all `CACHE_SIZE` entries are listed, so the tail exists |
| LruCache.StoredKey | src/cache.c:82-83 | the stored key is the URL itself when it fits the 256-byte key buffer, and otherwise exactly its first 255 characters |
| LruCache.Add | src/cache.c:63-109 | after reaping, the chosen slot holds the truncated key, the first `size` bytes of the data and the expiry and is the head; every other slot keeps its contents |
| CacheIntegrity.AddLinked | src/cache.c:63-109 | adding keeps the list well linked: the new entry goes in front of the unexpired survivors in a free slot, or, when all 100 are live, the least recently used entry is evicted and its slot moves to the front |
| CacheIntegrity.AddThenFind | src/cache.c:91-105 | an entry just added under a key that fits is found by a later lookup before its expiry, as the head, with the stored bytes |
| LruCache.AddOrFail | src/cache.c:85-90 | with the allocation succeeding this is `cache_add`; when it fails the insertion is rolled back: no key or expiry changes, no slot gains a payload it did not hold, and every unexpired entry keeps its payload, so nothing is stored and nothing live is evicted |
| CacheIntegrity.AddOrFailLinked | src/cache.c:77-90 | a failed allocation leaves a well-linked cache whose order is exactly the survivors of reaping, and no unexpired entry loses its data |
| LruCacheAsWritten.RelinkAsWritten | src/cache.c:96-105 | the front-move as written makes the entry the head but sets `tail` only when the moved entry was the tail |
| LruCacheAsWritten.UnlinkAsWritten | src/cache.c:120-126 | reaping an entry as written frees its payload but keeps its stale `prev`/`next` |
| LruCacheAsWritten.ReapAsWritten | src/cache.c:115-129 | the reaping walk as written never turns a NULL tail into a non-NULL one |
| LruCacheAsWritten.RemoveExpiredAsWritten | src/cache.c:111-131 | `cache_remove_expired` as written never turns a NULL tail into a non-NULL one |
| LruCacheAsWritten.FindAsWritten | src/cache.c:35-61 | a miss changes nothing, a hit becomes the head, and a NULL tail stays NULL |
| LruCacheAsWritten.AddAsWritten | src/cache.c:63-109 | `cache_add` as written: NULL dereference (`None`) exactly when no slot is free and the tail is NULL; otherwise a NULL tail stays NULL |
| LruCacheAsWritten.TailStaysNull | src/cache.c:17 | starting from `cache_init`'s NULL tail, no lookup, reap or insertion ever sets the tail |
| LruCacheAsWritten.ReapNothingExpired | src/cache.c:115-129 | a reaping walk that meets no expired entry changes nothing |
| LruCacheAsWritten.FullCacheCrashes | src/cache.c:77-79 | with all 100 slots live and the tail NULL, `cache_add` dereferences NULL |
| LruCacheAsWritten.StaleExampleReap | src/cache.c:115-126 | in the example, reaping frees slots 1 and 0 and leaves their old links in place |
| LruCacheAsWritten.StaleExampleFirstAdd | src/cache.c:63-105 | in the example, the first insertion reuses slot 0 and puts it in front of slot 2 |
| LruCacheAsWritten.StaleLinksMakeCycle | src/cache.c:96-105 | the second insertion follows slot 1's stale links and turns the list into the cycle 0 -> 2 -> 0 |
| LruCacheAsWritten.AllocFailureLeavesEmptyEntry | src/cache.c:77-90 | when the evicted tail is reused and `malloc` fails, the entry stays listed with no data and the new key |
| CacheScenario.FirstAdd | tests/cache_test.c:9 | the first insertion into the empty cache lands in slot 0 and is the only listed entry |
| CacheScenario.SecondAdd | tests/cache_test.c:10 | the second insertion lands in slot 1, in front of slot 0, and both entries keep their data and expiry |
| CacheScenario.CacheTestScenario | tests/cache_test.c:9-20 | the test's lookup of `http://example.com` hits with its data; six seconds later reaping frees the google entry, keeps the example entry, and lookups then miss and hit accordingly |
| CacheScenario.ExpireScenario | tests/cache_test.c:18-20 | reaping at `t + 6` frees the entry that expired at `t + 5` and keeps the one that expires at `t + 10` |
| WorkQueue.ModIsWrap | src/thread_pool.c:43 | the C `%` on an index at most one lap past the end is a single subtraction |
| WorkQueue.ElemsAt | src/thread_pool.c:60-61 | the `k`-th queued socket is at `(front + k) % capacity` |
| WorkQueue.InitPool | src/thread_pool.c:6-18 | a fresh queue is well formed and empty, with 16 cells, `front == rear == 0`, not stopped |
| WorkQueue.Resize | src/thread_pool.c:20-36 | growing doubles the capacity and keeps the queued sockets, in FIFO order, including those wrapped past the end |
| WorkQueue.Enqueue | src/thread_pool.c:38-48 | the socket joins the back of the queue, everything already queued stays in order, and capacity doubles exactly when the queue was full |
| WorkQueue.EnqueueAll | src/proxy.c:34-44 | accepted sockets join the queue in arrival order; the buffer grows only if they do not fit |
| WorkQueue.Dequeue | src/thread_pool.c:50-66 | a stopped pool returns -1 and changes nothing; an empty queue waits; otherwise the oldest socket is returned and removed, the rest kept in order |
| WorkQueue.Stop | src/thread_pool.c:98-100 | raising the stop flag keeps the queued sockets and the queue well formed |
| WorkQueue.RunWorker | src/thread_pool.c:68-78 | a worker exits exactly when the pool is stopped; otherwise it hands over every queued socket in FIFO order and ends waiting on an empty queue |
| WorkQueueAsWritten.ResizeAsWritten | src/thread_pool.c:20-36 | `resize_queue` as written doubles the buffer and keeps `front`, `size` and `stop` |
| WorkQueueAsWritten.EnqueueAsWritten | src/thread_pool.c:38-48 | `enqueue` as written grows the count by one and keeps `front` |
| WorkQueueAsWritten.DequeueAsWritten | src/thread_pool.c:50-66 | `dequeue` as written returns -1 when stopped, waits when empty, and otherwise returns the cell at `front` |
| WorkQueueAsWritten.DequeueAgrees | src/thread_pool.c:50-66 | on a well-formed queue the source's `dequeue` is the corrected one |
| WorkQueueAsWritten.EnqueueAgreesBelowCapacity | src/thread_pool.c:41-44 | below capacity the source's `enqueue` is the corrected one |
| WorkQueueAsWritten.ResizeGuardDead | src/thread_pool.c:27-32 | on a full, well-formed queue `front == rear`, so the wrap-around copy never runs and the resize only appends cells |
| WorkQueueAsWritten.FullEnqueueOverwritesOldest | src/thread_pool.c:41-44 | enqueueing onto a full queue writes the new socket over the oldest one, breaks the queue invariant, and the next `dequeue` returns the newest socket |
| WorkQueueAsWritten.SeventeenthClientLosesFirst | src/thread_pool.c:27-44 | after sixteen clients fill the initial queue, the seventeenth overwrites the first: the source's first `dequeue` returns socket 16, the corrected one socket 0 |
| Request.CString | src/proxy.c:65-67 | the text read from the zeroed buffer is the prefix before the first NUL, and contains no NUL |
| Request.SkipSpaceSpec | src/proxy.c:54 | skipping separators drops exactly a leading run of separators, stopping at a non-separator |
| Request.WordSpec | src/proxy.c:54 | one `%s` conversion reads a separator-free prefix and stops only at a separator or the end |
| Request.TokensAreWords | src/proxy.c:54 | every word `sscanf` reads is non-empty and separator-free |
| Request.WordThenRest | src/proxy.c:54 | a word followed by separators reads as that word, then the words of the rest |
| Request.TokensUnwords | src/proxy.c:54 | reading back words joined by spaces gives the words |
| Request.ExtractUrlAsWritten | src/proxy.c:51-62 | `extract_url` as written: refused when the first word is not `GET`; with a URL word it returns and keeps it; a bare `GET` returns the URL kept from an earlier call |
| Request.ExtractAgrees | src/proxy.c:51-62 | unless the line has exactly one word, the source's `extract_url` and the corrected one agree |
| Request.BareGetReusesUrl | src/proxy.c:52-54 | a bare `GET` line returns the previous request's URL, where the corrected extraction refuses it |
| Request.UntilSlashSpec | src/proxy.c:95 | `%[^/]` reads a prefix without `/` and stops only at a `/` or the end |
| Request.SplitUrl | src/proxy.c:94-95 | a URL that splits gives a non-empty host without `/` and a non-empty, separator-free path |
| Request.SplitJoins | src/proxy.c:95 | a word-shaped URL that splits is exactly `http://` + host + path, and the path starts with `/` |
| Request.JoinSplits | src/proxy.c:95 | a host without `/` and a word path starting with `/`, joined into a URL, split back to themselves |
| Request.Snprintf | src/proxy.c:119 | formatting into a buffer of `size` keeps a prefix of the text of at most `size - 1` characters, all of it when it fits |
| Request.UpstreamRequest | src/proxy.c:119 | the request sent upstream is a prefix of the HTTP/1.0 request text and fits the 1024-byte buffer |
| Request.RequestTextLength | src/proxy.c:119 | the fixed text of the upstream request is 44 characters around host and path |
| Request.ShortUrlNotTruncated | src/proxy.c:94-119 | a URL that fits the 256-byte URL buffer never makes the upstream request overflow, so nothing is cut off |
| Request.GetLineExtracts | src/proxy.c:54-61 | a line `GET <path>` followed by a separator yields that path, verbatim |
| Request.NonGetRefused | src/proxy.c:54-59 | a line whose first word (after any leading separators) is not exactly `GET` yields no URL, whatever follows |
| Request.UpstreamRequestExtracts | src/proxy.c:119-120 | the request sent upstream, read the way `extract_url` reads a request, yields the path again |
| Handler.Received | src/proxy.c:65-67 | the request read from the 1024-byte zeroed buffer has at most 1024 characters and no NUL |
| Handler.HandleClient | src/proxy.c:64-139 | every request closes the client exactly once and the origin at most once, and what goes upstream fits the buffer |
| Handler.Serve | src/proxy.c:81-139 | after the lookup, the client is closed exactly once, the origin at most once, and the upstream bytes fit the buffer |
| Handler.Fetch | src/proxy.c:93-139 | on the miss path, the client is closed exactly once, the origin at most once, and the upstream bytes fit the buffer |
| Handler.RequestedUrl | src/proxy.c:67-80 | the URL `handle_client` looks up is always a non-empty word without separators, taken from a successful receive |
| Handler.RefusedRequest | src/proxy.c:67-80 | a failed receive or a line that is not `GET <url>` only closes the client; nothing is sent and the cache is unchanged |
| Handler.ServedFromCache | src/proxy.c:81-91 | a request with a live entry is answered with exactly that entry's data; the origin is never contacted, and the entry becomes most recently used in a well-linked cache |
| Handler.HitAnswered | src/proxy.c:81-91 | a cache hit sends the hit slot's payload and closes the client, and the cache is the one the lookup reordered |
| Handler.FetchRelaysResponse | src/proxy.c:119-134 | on a miss the origin gets the formatted request, the client gets the origin's bytes unchanged and in order, and the response is offered to `cache_add` under the URL with an expiry one hour after the response loop starts (stored when its copy is allocated, see `LruCache.AddOrFail`) |
| Handler.FetchEffects | src/proxy.c:119-138 | the successful miss path sends the request, relays the chunks, offers the concatenated response to `cache_add` (stored when its copy is allocated, see `LruCache.AddOrFail`) and closes both sockets |
| Handler.OriginUnreachable | src/proxy.c:97-116 | an unresolvable host closes only the client; a refused connection closes both; nothing is sent or stored |
| Handler.FetchedThenServed | src/proxy.c:81-134 | a fetched response, once stored, answers the next request for the same URL within the hour from the cache, with the same bytes the first client received |
| Handler.HandleLinked | src/proxy.c:64-139 | handling a request keeps a well-linked cache well linked |
| Handler.StoreLinked | src/proxy.c:134 | storing a response keeps the cache well linked, whether or not its copy is allocated |
| Handler.StoredLinked | src/proxy.c:134 | a stored response leaves the cache well linked, in the order given by `cache_add` |
| Handler.DroppedLinked | src/proxy.c:134 | a response whose copy fails to allocate leaves the cache well linked |
| Handler.RelayEffects | src/proxy.c:126-131 | relaying sends nothing upstream, closes nothing, and the client receives the chunks back to back |
| Handler.AnswerCounts | src/proxy.c:86-89 | answering from the cache sends one payload to the client, closes it once, and sends nothing upstream |
| Handler.FetchCounts | src/proxy.c:119-138 | a successful fetch sends exactly the request upstream and closes client and origin once each |

## Left out

- Locks, condition variables and threads. Each operation is modelled as one atomic step. A `dequeue` that would wait returns `Blocked`.
- Races the locking leaves open are not modelled:
  - `handle_client` reads the found entry's data after `cache_find` has released the cache lock;
  - the `static` URL buffer of `extract_url` is shared between worker threads.
- `stop_thread_pool` joins the workers before it sets `stop`, so shutdown hangs. This is an ordering fault between threads, and threads are not modelled. `WorkQueue.Stop` models only the flag: a dequeue that would wait is `Blocked`, and the next dequeue after `Stop` returns -1.
- `start_thread_pool`, `proxy_init`, the accept loop's socket calls, `cache_destroy`, `cache_print` and everything in `src/logging.c`: these are I/O, thread creation, freeing memory or logging. The accept loop's enqueueing is `WorkQueue.EnqueueAll`.
- Fixed-size C buffers that `sscanf` can overflow are not modelled; words are unbounded here. These are `method[8]`, `url[256]`, `protocol[16]`, `host[128]` and `path[128]`.
- A request of exactly 1024 bytes leaves the receive buffer without a terminating NUL. The model reads at most 1024 characters.
- Integer widths are not modelled: `size_t` sizes and indices, `int` sockets, `time_t` clocks. All are unbounded integers here.
- `malloc`/`realloc` failure:
  - in `init_thread_pool` and `resize_queue` the source exits the process;
  - in the response loop of `handle_client` the source does not check;
  - in `cache_init` (src/cache.c:4-15) the source returns NULL, and `LruCache.Init` models only the successful path.

  The model assumes these succeed. The failing `malloc` in `cache_add` is modelled (`LruCache.AddOrFail`).
- `init_thread_pool` does not reset `size`. The model starts from the zero-initialised global, so `size` is 0.
- Cells gained by `realloc` are uninitialised in the C. The model fills them with zeros. In the corrected queue they are never read before they are written. In `WorkQueueAsWritten`, the lost-socket state of `WorkQueueAsWritten.SeventeenthClientLosesFirst` later dequeues such a cell; the model reads 0 there, where the C reads an indeterminate value.
- LruCache.Find: uses one clock reading for the whole walk, where the C calls `time(NULL)` once per entry.
- LruCache.Reap: walks at most `|slots|` entries instead of "until NULL". `CacheIntegrity.ReapIsWalk` and `CacheIntegrity.ScanIsFirstHit` show that this bound is never reached on a well-linked list. On the cyclic list of `LruCacheAsWritten.StaleLinksMakeCycle`, the C loops for ever where the model stops.
- Request.ExtractUrl: refuses a request with no word at all, where `extract_url` compares an unwritten `method` buffer (undefined behaviour).
- Request.SplitUrl: refuses a URL that is not `http://host/...` with a non-empty host and path. There `handle_client` reads unwritten `host`/`path` buffers (undefined behaviour). `Handler.HandleClient` closes the client in that case.
- A URL of 256 characters or more is stored truncated to 255, while `cache_find` compares the full URL, so such an entry is never hit. The model keeps this behaviour, and `Handler.FetchedThenServed` requires a URL that fits.
- Adding a key that is already cached stores a second entry instead of overwriting the first, as the C does. Lookups return the more recent one.
- The entry's separate `size` field is folded into the payload's length, and payloads are `seq<char>`.

## Findings

| source | as written | input that shows it | evidently intended | confidence | as-written member | corrected member |
|---|---|---|---|---|---|---|
| src/cache.c:96-105 | the front-move never sets `tail` when the list was empty, so `tail` stays NULL for ever; with all 100 slots live, `cache_add` dereferences it (line 78) | 100 `cache_add` calls with distinct URLs and unexpired entries, then a 101st | the first entry becomes the tail too, and a full cache evicts its least recently used entry | high (not executed) | LruCacheAsWritten.FullCacheCrashes | CacheIntegrity.AddLinked |
| src/cache.c:120-126 | reaping an entry frees its data but keeps its `prev`/`next`; reusing that slot later writes through the stale links | entries in slots 2, 1, 0 (head to tail), 1 and 0 expired, then two `cache_add` calls: the list becomes the cycle 0 -> 2 -> 0 | an unlinked entry has no neighbours, and the list stays acyclic with exactly the live entries | high (not executed) | LruCacheAsWritten.StaleLinksMakeCycle | CacheIntegrity.RemoveExpiredLinked |
| src/cache.c:82-90 | when `malloc` fails, `cache_add` returns after overwriting the key, leaving an evicted tail listed with no data. As written the defect is latent: from `cache_init` the tail is always NULL (first row), so a full cache crashes at line 78 before `malloc` is reached. It shows once the tail is maintained | a cache whose tail is set (the first row fixed), with every slot live, and a failing `malloc(size)` | a failed add is rolled back, leaving no half-filled entry on the list | medium (not executed) | LruCacheAsWritten.AllocFailureLeavesEmptyEntry | CacheIntegrity.AddOrFailLinked |
| src/thread_pool.c:27-32 | the wrap-around copy runs only when `front > rear`, but `resize_queue` is called only on a full queue, where `front == rear`; the next `enqueue` overwrites the oldest socket | 16 queued clients, then a 17th: the first `dequeue` returns socket 16, and socket 0 is lost | growing keeps every queued socket in FIFO order | high (not executed) | WorkQueueAsWritten.SeventeenthClientLosesFirst | WorkQueue.Enqueue |
| src/proxy.c:52-54 | the URL buffer is `static` and `sscanf` leaves it untouched on a one-word line, so a bare `GET` is served the previous request's URL | a request for `http://a/x`, then the request `GET\r\n\r\n` | a request without a URL is refused | medium (not executed) | Request.BareGetReusesUrl | Request.ExtractUrl |

=== FILE: cache.dfy ===
/**
 * The proxy's fixed-capacity LRU cache with expiry, as an arena of slots.
 *
 * Each slot is one element of the C array `entries`; the intrusive recency
 * list is kept as optional slot indices in `prev`/`next`, and `head`/`tail`
 * name its most and least recently used ends. A slot is free exactly when it
 * holds no data. The clock is an explicit `now` argument and the cache lock
 * is gone: every operation is a pure state transition.
 *
 * The operations below are the intended behaviour: the tail is set when the
 * first entry is linked, reaped slots are unlinked and cleared, and a failed
 * payload allocation rolls the insertion back. The literal C behaviour lives
 * in LruCacheAsWritten.
 */
module LruCache {
  import opened Optional
  import opened Seqs

  /** Number of slots in the backing array. */
  const CacheSize: nat := 100
  /** Size of the key buffer, terminating NUL included. */
  const UrlSize: nat := 256

  datatype Slot = Slot(
    url: string,
    data: Option<seq<char>>,
    expiry: int,
    prev: Option<nat>,
    next: Option<nat>)

  datatype Cache = Cache(slots: seq<Slot>, head: Option<nat>, tail: Option<nat>)

  /** Result of a lookup: the cache after the lookup and the slot hit, if any. */
  datatype Lookup = Lookup(cache: Cache, hit: Option<nat>)

  /** A zero-filled slot, as `calloc` leaves it. */
  const EmptySlot := Slot("", None, 0, None, None)

  /** The payload bytes of a slot (empty for a free slot). */
  function Payload(s: Slot): seq<char> {
    if s.data.Some? then s.data.value else []
  }

  /** Two slots agree on everything except their list links. */
  predicate SameContents(a: Slot, b: Slot) {
    a.url == b.url && a.data == b.data && a.expiry == b.expiry
  }

  // ---------------------------------------------------------------------
  // The list invariant, relative to a ghost head-to-tail order

  function First(ord: seq<nat>): Option<nat> {
    if |ord| == 0 then None else Some(ord[0])
  }

  function Last(ord: seq<nat>): Option<nat> {
    if |ord| == 0 then None else Some(ord[|ord| - 1])
  }

  /** What `prev` of the k-th entry must be. */
  function PrevOf(ord: seq<nat>, k: nat): Option<nat>
    requires k < |ord|
  {
    if k == 0 then None else Some(ord[k - 1])
  }

  /** What `next` of the k-th entry must be. */
  function NextOf(ord: seq<nat>, k: nat): Option<nat>
    requires k < |ord|
  {
    if k + 1 == |ord| then None else Some(ord[k + 1])
  }

  /** `ord` names slots of a full-size arena. */
  ghost predicate InArena(c: Cache, ord: seq<nat>) {
    |c.slots| == CacheSize && forall k | 0 <= k < |ord| :: ord[k] < |c.slots|
  }

  /** The live slots are exactly those listed in `ord`. */
  ghost predicate LiveExactly(c: Cache, ord: seq<nat>) {
    forall i | 0 <= i < |c.slots| :: c.slots[i].data.Some? <==> i in ord
  }

  /** A free slot has no list neighbours. */
  ghost predicate FreeCleared(c: Cache) {
    forall i | 0 <= i < |c.slots| && c.slots[i].data.None? ::
      c.slots[i].prev.None? && c.slots[i].next.None?
  }

  /** `prev`/`next` of the k-th listed slot name its neighbours in `ord`. */
  ghost predicate LinkAt(c: Cache, ord: seq<nat>, k: nat)
    requires k < |ord| && ord[k] < |c.slots|
  {
    c.slots[ord[k]].prev == PrevOf(ord, k) && c.slots[ord[k]].next == NextOf(ord, k)
  }

  /** `prev`/`next` of every listed slot name its neighbours in `ord`. */
  ghost predicate LinksAgree(c: Cache, ord: seq<nat>)
    requires InArena(c, ord)
  {
    forall k | 0 <= k < |ord| :: LinkAt(c, ord, k)
  }

  /** `head` and `tail` are the ends of `ord`. */
  predicate Ends(c: Cache, ord: seq<nat>) {
    c.head == First(ord) && c.tail == Last(ord)
  }

  /**
   * `ord` lists the live slots from head to tail and the pointers agree
   * with it: it is duplicate-free, it holds exactly the slots with data,
   * `prev`/`next` of each entry name its neighbours in `ord`, free slots
   * have no neighbours, and `head`/`tail` are the ends of `ord`.
   */
  ghost predicate Linked(c: Cache, ord: seq<nat>) {
    && InArena(c, ord)
    && NoDup(ord)
    && LiveExactly(c, ord)
    && FreeCleared(c)
    && LinksAgree(c, ord)
    && Ends(c, ord)
  }

  /**
   * Reference definition of reaping on the head-to-tail order: the entries
   * of `ord` whose expiry is after `now`, in their original order.
   */
  function Survivors(s: seq<Slot>, ord: seq<nat>, now: int): (r: seq<nat>)
    requires forall k | 0 <= k < |ord| :: ord[k] < |s|
    ensures forall x | x in r :: x in ord && s[x].expiry > now
    ensures forall x | x in ord && s[x].expiry > now :: x in r
  {
    if |ord| == 0 then []
    else (if s[ord[0]].expiry > now then [ord[0]] else []) + Survivors(s, ord[1..], now)
  }

  // ---------------------------------------------------------------------
  // Pointer writes

  /** `at->next = v` when `at` is not NULL. */
  function SetNext(s: seq<Slot>, at: Option<nat>, v: Option<nat>): (r: seq<Slot>)
    ensures |r| == |s|
    ensures forall j | 0 <= j < |s| :: r[j] == if at == Some(j) then s[j].(next := v) else s[j]
  {
    if at.Some? && at.value < |s| then s[at.value := s[at.value].(next := v)] else s
  }

  /** `at->prev = v` when `at` is not NULL. */
  function SetPrev(s: seq<Slot>, at: Option<nat>, v: Option<nat>): (r: seq<Slot>)
    ensures |r| == |s|
    ensures forall j | 0 <= j < |s| :: r[j] == if at == Some(j) then s[j].(prev := v) else s[j]
  {
    if at.Some? && at.value < |s| then s[at.value := s[at.value].(prev := v)] else s
  }

  // ---------------------------------------------------------------------
  // Operations

  /** `cache_init`: every slot zeroed, no head, no tail. */
  function Init(): (c: Cache)
    ensures |c.slots| == CacheSize
    ensures forall i | 0 <= i < |c.slots| :: c.slots[i].data.None?
    ensures c.head.None? && c.tail.None?
  {
    Cache(seq(CacheSize, _ => EmptySlot), None, None)
  }

  /**
   * Move slot `i` to the head of the recency list: unlink it from its
   * neighbours, repair `tail` if it was the tail, and link it in front of
   * the old head. When the list was empty the slot also becomes the tail.
   */
  function Relink(c: Cache, i: nat): (r: Cache)
    requires i < |c.slots|
    ensures |r.slots| == |c.slots| && r.head == Some(i)
    ensures forall j | 0 <= j < |c.slots| :: SameContents(r.slots[j], c.slots[j])
  {
    if c.head == Some(i) then c
    else
      var e := c.slots[i];
      var s1 := SetNext(c.slots, e.prev, e.next);
      var s2 := SetPrev(s1, e.next, e.prev);
      var tail := if c.tail == Some(i) then e.prev else c.tail;
      var s3 := s2[i := s2[i].(prev := None, next := c.head)];
      var s4 := SetPrev(s3, c.head, Some(i));
      Cache(s4, Some(i), if c.head.None? then Some(i) else tail)
  }

  /**
   * Walk the list from `cur` for at most `fuel` steps and return the first
   * slot whose key equals `url` and which has not expired at `now`.
   */
  function Scan(s: seq<Slot>, cur: Option<nat>, fuel: nat, url: string, now: int): (r: Option<nat>)
    ensures r.Some? ==> r.value < |s| && s[r.value].url == url && s[r.value].expiry > now
    decreases fuel
  {
    if fuel == 0 || cur.None? || cur.value >= |s| then None
    else if s[cur.value].url == url && s[cur.value].expiry > now then cur
    else Scan(s, s[cur.value].next, fuel - 1, url, now)
  }

  /**
   * `cache_find`: a hit is a slot with the given key that has not expired;
   * it is moved to the head and nothing else about the slots changes. A
   * miss changes nothing at all.
   */
  function Find(c: Cache, url: string, now: int): (r: Lookup)
    ensures r.hit.None? ==> r.cache == c
    ensures r.hit.Some? ==>
      && r.hit.value < |c.slots|
      && c.slots[r.hit.value].url == url
      && c.slots[r.hit.value].expiry > now
      && r.cache.head == r.hit
      && |r.cache.slots| == |c.slots|
      && forall j | 0 <= j < |c.slots| :: SameContents(r.cache.slots[j], c.slots[j])
  {
    match Scan(c.slots, c.head, |c.slots|, url, now)
    case None => Lookup(c, None)
    case Some(i) => Lookup(Relink(c, i), Some(i))
  }

  /**
   * Take slot `i` out of the list, repairing `head`/`tail` when it was one
   * of the ends, release its data and clear its links.
   */
  function Unlink(c: Cache, i: nat): (r: Cache)
    requires i < |c.slots|
    ensures |r.slots| == |c.slots| && r.slots[i].data.None?
    ensures forall j | 0 <= j < |c.slots| ::
      r.slots[j].url == c.slots[j].url && r.slots[j].expiry == c.slots[j].expiry
    ensures forall j | 0 <= j < |c.slots| && j != i :: r.slots[j].data == c.slots[j].data
  {
    var e := c.slots[i];
    var s1 := SetNext(c.slots, e.prev, e.next);
    var s2 := SetPrev(s1, e.next, e.prev);
    var head := if c.head == Some(i) then e.next else c.head;
    var tail := if c.tail == Some(i) then e.prev else c.tail;
    Cache(s2[i := s2[i].(data := None, prev := None, next := None)], head, tail)
  }

  /**
   * The reaping walk: from `cur`, for at most `fuel` entries, unlink every
   * entry whose expiry is not after `now`. The successor is read before the
   * entry is unlinked. Keys and expiries never change, data is only ever
   * released, and the data of an unexpired slot is never touched.
   */
  function Reap(c: Cache, cur: Option<nat>, fuel: nat, now: int): (r: Cache)
    ensures |r.slots| == |c.slots|
    ensures forall j | 0 <= j < |c.slots| ::
      && r.slots[j].url == c.slots[j].url
      && r.slots[j].expiry == c.slots[j].expiry
      && (r.slots[j].data == c.slots[j].data || r.slots[j].data.None?)
    ensures forall j | 0 <= j < |c.slots| && c.slots[j].expiry > now ::
      r.slots[j].data == c.slots[j].data
    decreases fuel
  {
    if fuel == 0 || cur.None? || cur.value >= |c.slots| then c
    else
      var i := cur.value;
      var next := c.slots[i].next;
      if c.slots[i].expiry <= now then Reap(Unlink(c, i), next, fuel - 1, now)
      else Reap(c, next, fuel - 1, now)
  }

  /** `cache_remove_expired`: one reaping walk from the head. */
  function RemoveExpired(c: Cache, now: int): (r: Cache)
    ensures |r.slots| == |c.slots|
    ensures forall j | 0 <= j < |c.slots| ::
      && r.slots[j].url == c.slots[j].url
      && r.slots[j].expiry == c.slots[j].expiry
      && (r.slots[j].data == c.slots[j].data || r.slots[j].data.None?)
    ensures forall j | 0 <= j < |c.slots| && c.slots[j].expiry > now ::
      r.slots[j].data == c.slots[j].data
  {
    Reap(c, c.head, |c.slots|, now)
  }

  /** The lowest-index free slot at or after `from`. */
  function FirstFree(s: seq<Slot>, from: nat): (r: Option<nat>)
    ensures r.Some? ==>
      && from <= r.value < |s|
      && s[r.value].data.None?
      && forall j | from <= j < r.value :: s[j].data.Some?
    ensures r.None? ==> forall j | from <= j < |s| :: s[j].data.Some?
    decreases |s| - from
  {
    if from >= |s| then None
    else if s[from].data.None? then Some(from)
    else FirstFree(s, from + 1)
  }

  /** The slot `add` fills: the lowest free slot, or else the LRU tail. */
  function Target(c: Cache): Option<nat> {
    match FirstFree(c.slots, 0)
    case Some(i) => Some(i)
    case None => c.tail
  }

  /** The key as stored: at most `UrlSize - 1` characters (`strncpy` + NUL). */
  function StoredKey(url: string): (k: string)
    ensures |k| <= UrlSize - 1
    ensures k <= url
    ensures |url| < UrlSize ==> k == url
    ensures |url| >= UrlSize ==> k == url[..UrlSize - 1]
  {
    if |url| < UrlSize then url else url[..UrlSize - 1]
  }

  /** Store a key, a payload and an expiry in slot `t`; the links stay. */
  function Fill(c: Cache, t: nat, key: string, body: seq<char>, expiry: int): (r: Cache)
    requires t < |c.slots|
    ensures |r.slots| == |c.slots| && r.head == c.head && r.tail == c.tail
    ensures r.slots[t] == Slot(key, Some(body), expiry, c.slots[t].prev, c.slots[t].next)
    ensures forall j | 0 <= j < |c.slots| && j != t :: r.slots[j] == c.slots[j]
  {
    c.(slots := c.slots[t := c.slots[t].(url := key, data := Some(body), expiry := expiry)])
  }

  /**
   * `cache_add`: reap, pick the target slot (evicting the tail only when no
   * slot is free), store the truncated key, a copy of the first `size`
   * bytes of `data` and the expiry, and move the slot to the head.
   */
  function Add(c: Cache, url: string, data: seq<char>, size: nat, expiry: int, now: int): (r: Cache)
    requires size <= |data|
    ensures var c1 := RemoveExpired(c, now);
      match Target(c1)
      case None => r == c1
      case Some(t) =>
        t < |c1.slots| ==>
          && |r.slots| == |c1.slots|
          && r.head == Some(t)
          && r.slots[t].url == StoredKey(url)
          && r.slots[t].data == Some(data[..size])
          && r.slots[t].expiry == expiry
          && forall j | 0 <= j < |c1.slots| && j != t :: SameContents(r.slots[j], c1.slots[j])
  {
    var c1 := RemoveExpired(c, now);
    match Target(c1)
    case None => c1
    case Some(t) =>
      if t >= |c1.slots| then c1
      else
        Relink(Fill(c1, t, StoredKey(url), data[..size], expiry), t)
  }

  /**
   * `cache_add` when the copy of the payload may fail to be allocated
   * (`allocOk` false). A failed insertion is rolled back: nothing is
   * stored and nothing is evicted, so the cache is as reaping left it.
   */
  function AddOrFail(c: Cache, url: string, data: seq<char>, size: nat, expiry: int, now: int, allocOk: bool): (r: Cache)
    requires size <= |data|
    ensures allocOk ==> r == Add(c, url, data, size, expiry, now)
    ensures !allocOk ==> r == RemoveExpired(c, now)
    ensures !allocOk ==> |r.slots| == |c.slots|
    ensures !allocOk ==> forall j | 0 <= j < |c.slots| ::
      && r.slots[j].url == c.slots[j].url
      && r.slots[j].expiry == c.slots[j].expiry
      && (r.slots[j].data.Some? ==> r.slots[j].data == c.slots[j].data)
      && (c.slots[j].expiry > now ==> r.slots[j].data == c.slots[j].data)
  {
    if allocOk then Add(c, url, data, size, expiry, now)
    else RemoveExpired(c, now)
  }
}

=== FILE: cache_as_written.dfy ===
/**
 * The LRU cache exactly as `src/cache.c` writes it, next to the corrected
 * model in `LruCache`. Three things differ:
 *
 *  - moving an entry to the front never sets `tail` when the list was
 *    empty, so `tail` stays NULL for ever;
 *  - unlinking an expired entry leaves its `prev`/`next` pointing at its
 *    old neighbours, and reusing the slot later follows those stale links;
 *  - a failed allocation in `cache_add` returns with the key already
 *    overwritten and, for an evicted entry, the entry still linked but
 *    without data.
 *
 * A NULL dereference is modelled as the result `None`.
 */
module LruCacheAsWritten {
  import opened Optional
  import opened LruCache

  /** The front-move of `cache_find` and `cache_add`, as written. */
  function RelinkAsWritten(c: Cache, i: nat): (r: Cache)
    requires i < |c.slots|
    ensures |r.slots| == |c.slots| && r.head == Some(i)
    ensures r.tail == (if c.head == Some(i) || c.tail != Some(i) then c.tail else c.slots[i].prev)
    ensures forall j | 0 <= j < |c.slots| :: SameContents(r.slots[j], c.slots[j])
  {
    if c.head == Some(i) then c
    else
      var e := c.slots[i];
      var s1 := SetNext(c.slots, e.prev, e.next);
      var s2 := SetPrev(s1, e.next, e.prev);
      var tail := if c.tail == Some(i) then e.prev else c.tail;
      var s3 := s2[i := s2[i].(prev := None, next := c.head)];
      var s4 := SetPrev(s3, c.head, Some(i));
      Cache(s4, Some(i), tail)
  }

  /** The unlinking step of `cache_remove_expired`, as written: links are kept. */
  function UnlinkAsWritten(c: Cache, i: nat): (r: Cache)
    requires i < |c.slots|
    ensures |r.slots| == |c.slots| && r.slots[i].data.None?
    ensures r.slots[i].prev == c.slots[i].prev && r.slots[i].next == c.slots[i].next
    ensures r.tail == (if c.tail == Some(i) then c.slots[i].prev else c.tail)
    ensures forall j | 0 <= j < |c.slots| ::
      r.slots[j].url == c.slots[j].url && r.slots[j].expiry == c.slots[j].expiry
    ensures forall j | 0 <= j < |c.slots| && j != i :: r.slots[j].data == c.slots[j].data
  {
    var e := c.slots[i];
    var s1 := SetNext(c.slots, e.prev, e.next);
    var s2 := SetPrev(s1, e.next, e.prev);
    var head := if c.head == Some(i) then e.next else c.head;
    var tail := if c.tail == Some(i) then e.prev else c.tail;
    Cache(s2[i := s2[i].(data := None)], head, tail)
  }

  /** The reaping walk of `cache_remove_expired`, as written. */
  function ReapAsWritten(c: Cache, cur: Option<nat>, fuel: nat, now: int): (r: Cache)
    ensures |r.slots| == |c.slots|
    ensures c.tail.None? ==> r.tail.None?
    decreases fuel
  {
    if fuel == 0 || cur.None? || cur.value >= |c.slots| then c
    else
      var i := cur.value;
      var next := c.slots[i].next;
      if c.slots[i].expiry <= now then ReapAsWritten(UnlinkAsWritten(c, i), next, fuel - 1, now)
      else ReapAsWritten(c, next, fuel - 1, now)
  }

  function RemoveExpiredAsWritten(c: Cache, now: int): (r: Cache)
    ensures |r.slots| == |c.slots|
    ensures c.tail.None? ==> r.tail.None?
  {
    ReapAsWritten(c, c.head, |c.slots|, now)
  }

  /** `cache_find`, as written. */
  function FindAsWritten(c: Cache, url: string, now: int): (r: Lookup)
    ensures r.hit.None? ==> r.cache == c
    ensures c.tail.None? ==> r.cache.tail.None?
    ensures r.hit.Some? ==> r.hit.value < |c.slots| && r.cache.head == r.hit
  {
    match Scan(c.slots, c.head, |c.slots|, url, now)
    case None => Lookup(c, None)
    case Some(i) => Lookup(RelinkAsWritten(c, i), Some(i))
  }

  /**
   * `cache_add`, as written. `allocOk` says whether `malloc(size)`
   * succeeds. With no free slot the tail is dereferenced: when it is NULL
   * the result is `None`.
   */
  function AddAsWritten(c: Cache, url: string, data: seq<char>, size: nat, expiry: int, now: int, allocOk: bool): (r: Option<Cache>)
    requires size <= |data|
    ensures var c1 := RemoveExpiredAsWritten(c, now);
      r.None? <==> FirstFree(c1.slots, 0).None? && (c1.tail.None? || c1.tail.value >= |c1.slots|)
    ensures r.Some? && c.tail.None? ==> r.value.tail.None?
  {
    var c1 := RemoveExpiredAsWritten(c, now);
    var target := match FirstFree(c1.slots, 0)
      case Some(i) => Some(i)
      case None => c1.tail;
    match target
    case None => None
    case Some(t) =>
      if t >= |c1.slots| then None
      else if !allocOk then
        Some(c1.(slots := c1.slots[t := c1.slots[t].(url := StoredKey(url), data := None)]))
      else
        Some(RelinkAsWritten(Fill(c1, t, StoredKey(url), data[..size], expiry), t))
  }

  // ---------------------------------------------------------------------
  // Finding: `tail` is never set

  /** Neither lookup nor insertion ever makes a NULL `tail` non-NULL. */
  lemma TailStaysNull(c: Cache, url: string, data: seq<char>, size: nat, expiry: int, now: int, allocOk: bool)
    requires c.tail.None? && size <= |data|
    ensures FindAsWritten(c, url, now).cache.tail.None?
    ensures RemoveExpiredAsWritten(c, now).tail.None?
    ensures AddAsWritten(c, url, data, size, expiry, now, allocOk).Some? ==>
      AddAsWritten(c, url, data, size, expiry, now, allocOk).value.tail.None?
  {
  }

  /** A reaping walk that meets no expired entry changes nothing. */
  lemma {:induction false} ReapNothingExpired(c: Cache, cur: Option<nat>, fuel: nat, now: int)
    requires forall j | 0 <= j < |c.slots| :: c.slots[j].expiry > now
    ensures ReapAsWritten(c, cur, fuel, now) == c
    decreases fuel
  {
    if fuel > 0 && cur.Some? && cur.value < |c.slots| {
      ReapNothingExpired(c, c.slots[cur.value].next, fuel - 1, now);
    }
  }

  /**
   * Since `tail` is NULL in every cache built by these operations from
   * `cache_init`, adding to a cache whose 100 slots all hold unexpired
   * entries dereferences NULL.
   */
  lemma FullCacheCrashes(c: Cache, url: string, data: seq<char>, size: nat, expiry: int, now: int, allocOk: bool)
    requires c.tail.None? && size <= |data|
    requires forall j | 0 <= j < |c.slots| :: c.slots[j].data.Some? && c.slots[j].expiry > now
    ensures AddAsWritten(c, url, data, size, expiry, now, allocOk).None?
  {
    ReapNothingExpired(c, c.head, |c.slots|, now);
    assert FirstFree(c.slots, 0).None?;
  }

  // ---------------------------------------------------------------------
  // Finding: stale links of reaped entries

  /** A slot of the example below. */
  function Entry(key: string, expiry: int, prev: Option<nat>, next: Option<nat>): Slot {
    Slot(key, Some(key), expiry, prev, next)
  }

  /**
   * Three entries, head to tail slots 2, 1, 0; slots 0 and 1 expire at
   * 10, slot 2 at 50; `tail` is NULL as it always is.
   */
  function StaleExample(): (c: Cache)
    ensures |c.slots| == CacheSize
  {
    var s := seq(CacheSize, j => EmptySlot);
    Cache(s[0 := Entry("a", 10, Some(1), None)]
           [1 := Entry("b", 10, Some(2), Some(0))]
           [2 := Entry("c", 50, None, Some(1))],
          Some(2), None)
  }

  /** The reaping of the first insertion at time 20, step by step. */
  lemma StaleExampleReap()
    ensures var c0 := StaleExample();
      var c1 := RemoveExpiredAsWritten(c0, 20);
      && c1.head == Some(2)
      && c1.slots[2].next.None?
      && c1.slots[0].data.None? && c1.slots[1].data.None?
      && c1.slots[1].prev == Some(2) && c1.slots[1].next == Some(0)
      && c1.slots[2].data.Some?
  {
    var c0 := StaleExample();
    var u1 := UnlinkAsWritten(c0, 1);
    var u0 := UnlinkAsWritten(u1, 0);
    assert u1.slots[2].next == Some(0) && u1.slots[0].prev == Some(2);
    assert u0.slots[2].next.None?;
    assert ReapAsWritten(c0, Some(2), CacheSize, 20) == ReapAsWritten(c0, Some(1), CacheSize - 1, 20);
    assert ReapAsWritten(c0, Some(1), CacheSize - 1, 20) == ReapAsWritten(u1, Some(0), CacheSize - 2, 20);
    assert ReapAsWritten(u1, Some(0), CacheSize - 2, 20) == ReapAsWritten(u0, None, CacheSize - 3, 20);
  }

  /** The first insertion at time 20 reaps slots 1 and 0 and reuses slot 0. */
  lemma StaleExampleFirstAdd()
    ensures var a := AddAsWritten(StaleExample(), "d", "d", 1, 100, 20, true);
      && a.Some?
      && |a.value.slots| == CacheSize
      && a.value.head == Some(0)
      && a.value.slots[0].next == Some(2) && a.value.slots[2].next.None?
      && a.value.slots[1].prev == Some(2) && a.value.slots[1].next == Some(0)
      && a.value.slots[1].data.None?
      && a.value.slots[0].data.Some? && a.value.slots[2].data.Some?
      && a.value.slots[0].expiry == 100 && a.value.slots[2].expiry == 50
  {
    var c0 := StaleExample();
    StaleExampleReap();
    var c1 := RemoveExpiredAsWritten(c0, 20);
    assert FirstFree(c1.slots, 0) == Some(0);
    assert "d"[..1] == "d";
  }

  /**
   * Two insertions at time 20 into the example: the first reaps slots 1
   * and 0 and reuses slot 0, the second reuses slot 1, whose stale links
   * name slots 2 and 0. Following them turns the list into a cycle
   * 0 -> 2 -> 0, on which every later `cache_find` miss and every
   * `cache_remove_expired` walk runs for ever.
   */
  lemma StaleLinksMakeCycle()
    ensures var a := AddAsWritten(StaleExample(), "d", "d", 1, 100, 20, true);
      && a.Some?
      && var b := AddAsWritten(a.value, "e", "e", 1, 100, 20, true);
      && b.Some?
      && b.value.head == Some(1)
      && b.value.slots[1].next == Some(0)
      && b.value.slots[0].next == Some(2)
      && b.value.slots[2].next == Some(0)
  {
    StaleExampleFirstAdd();
    var a := AddAsWritten(StaleExample(), "d", "d", 1, 100, 20, true).value;
    assert RemoveExpiredAsWritten(a, 20) == a by {
      assert ReapAsWritten(a, Some(0), CacheSize, 20) == ReapAsWritten(a, Some(2), CacheSize - 1, 20);
      assert ReapAsWritten(a, Some(2), CacheSize - 1, 20) == ReapAsWritten(a, None, CacheSize - 2, 20);
    }
    assert FirstFree(a.slots, 0) == Some(1) by {
      assert FirstFree(a.slots, 0) == FirstFree(a.slots, 1);
    }
    assert "e"[..1] == "e";
  }

  // ---------------------------------------------------------------------
  // Finding: allocation failure after eviction

  /**
   * When the entry to reuse is linked (the evicted tail) and `malloc`
   * fails, `cache_add` returns leaving that entry in the list with no data
   * and with the new key: the live slots are no longer the listed ones.
   */
  lemma AllocFailureLeavesEmptyEntry(c: Cache, url: string, data: seq<char>, size: nat, expiry: int, now: int)
    requires size <= |data|
    requires var c1 := RemoveExpiredAsWritten(c, now);
      FirstFree(c1.slots, 0).None? && c1.tail.Some? && c1.tail.value < |c1.slots|
    ensures var c1 := RemoveExpiredAsWritten(c, now);
      var r := AddAsWritten(c, url, data, size, expiry, now, false);
      && r.Some?
      && r.value.tail == c1.tail
      && r.value.slots[c1.tail.value].data.None?
      && r.value.slots[c1.tail.value].url == StoredKey(url)
      && r.value.slots[c1.tail.value].prev == c1.slots[c1.tail.value].prev
  {
  }
}

=== FILE: cache_integrity.dfy ===
/**
 * List integrity of the LRU cache: `Init`, `Find`, `RemoveExpired` and `Add`
 * all take a well-linked cache to a well-linked cache, and the lemmas say
 * exactly which head-to-tail order results.
 */
module CacheIntegrity {
  import opened Optional
  import opened Seqs
  import opened LruCache

  lemma InitLinked()
    ensures Linked(Init(), [])
  {
  }

  /** There are never more live entries than slots. */
  lemma LiveBound(c: Cache, ord: seq<nat>)
    requires Linked(c, ord)
    ensures |ord| <= CacheSize
  {
    NoDupBound(ord, |c.slots|);
  }

  /** Position of an element in a sequence. */
  lemma IndexOf(ord: seq<nat>, x: nat) returns (k: nat)
    requires x in ord
    ensures k < |ord| && ord[k] == x
  {
    k :| 0 <= k < |ord| && ord[k] == x;
  }

  /**
   * The pointer writes of `Relink` on a slot that is not the head and is
   * not its own neighbour, as seen from slot `j`.
   */
  lemma RelinkShape(c: Cache, i: nat, j: nat)
    requires i < |c.slots| && j < |c.slots| && c.head != Some(i)
    requires c.slots[i].prev != Some(i) && c.slots[i].next != Some(i)
    ensures var r := Relink(c, i); var e := c.slots[i];
      && r.slots[j].prev == (if j == i then None
                             else if c.head == Some(j) then Some(i)
                             else if e.next == Some(j) then e.prev
                             else c.slots[j].prev)
      && r.slots[j].next == (if j == i then c.head
                             else if e.prev == Some(j) then e.next
                             else c.slots[j].next)
  {
  }

  /** How `Relink` moves the tail. */
  lemma RelinkTailShape(c: Cache, i: nat)
    requires i < |c.slots| && c.head != Some(i)
    ensures Relink(c, i).tail ==
      (if c.head.None? then Some(i) else if c.tail == Some(i) then c.slots[i].prev else c.tail)
  {
  }

  /** The links of the k-th entry after moving the p-th entry (p > 0) to the front. */
  lemma RelinkMemberLink(c: Cache, ord: seq<nat>, p: nat, k: nat)
    requires InArena(c, ord) && NoDup(ord) && LinksAgree(c, ord) && Ends(c, ord)
    requires 0 < p < |ord| && k < |ord|
    ensures |Relink(c, ord[p]).slots| == |c.slots|
    ensures LinkAt(Relink(c, ord[p]), Promote(ord, p), k)
  {
    var i := ord[p];
    var o := Promote(ord, p);
    var n := |ord|;
    assert LinkAt(c, ord, p);
    assert ord[0] != i;
    assert ord[p - 1] != i;
    assert p + 1 < n ==> ord[p + 1] != i;
    RelinkShape(c, i, o[k]);
    if k == 0 {
    } else if k <= p {
      assert o[k] == ord[k - 1];
      assert LinkAt(c, ord, k - 1);
      assert k > 1 ==> ord[k - 1] != ord[0];
      assert p + 1 < n ==> ord[k - 1] != ord[p + 1];
      assert k < p ==> ord[k - 1] != ord[p - 1];
    } else {
      assert o[k] == ord[k];
      assert LinkAt(c, ord, k);
      assert ord[k] != ord[0] && ord[k] != ord[p - 1];
      assert k > p + 1 ==> ord[k] != ord[p + 1];
    }
  }

  /** A free slot keeps no neighbours when a member is moved to the front. */
  lemma RelinkMemberFree(c: Cache, ord: seq<nat>, p: nat, j: nat)
    requires Linked(c, ord)
    requires 0 < p < |ord| && j < |c.slots| && c.slots[j].data.None?
    ensures var r := Relink(c, ord[p]); r.slots[j].prev.None? && r.slots[j].next.None?
  {
    var i := ord[p];
    assert LinkAt(c, ord, p);
    assert ord[0] != i && ord[p - 1] != i;
    assert j !in ord;
    assert j != ord[0] && j != ord[p - 1] && (p + 1 < |ord| ==> j != ord[p + 1]);
    RelinkShape(c, i, j);
  }

  /** Moving the p-th entry to the front keeps the list linked, in promoted order. */
  lemma RelinkMember(c: Cache, ord: seq<nat>, p: nat)
    requires Linked(c, ord)
    requires p < |ord|
    ensures Linked(Relink(c, ord[p]), Promote(ord, p))
  {
    var o := Promote(ord, p);
    PromotePermutes(ord, p);
    if p == 0 {
      assert o == ord;
    } else {
      var r := Relink(c, ord[p]);
      assert InArena(r, o);
      RelinkMemberLinks(c, ord, p);
      RelinkMemberFrees(c, ord, p);
      RelinkMemberTail(c, ord, p);
      assert LiveExactly(r, o) by {
        forall j | 0 <= j < |r.slots| ensures r.slots[j].data.Some? <==> j in o {
          assert SameContents(r.slots[j], c.slots[j]);
        }
      }
      assert Ends(r, o);
    }
  }

  lemma RelinkMemberLinks(c: Cache, ord: seq<nat>, p: nat)
    requires InArena(c, ord) && NoDup(ord) && LinksAgree(c, ord) && Ends(c, ord)
    requires 0 < p < |ord|
    ensures InArena(Relink(c, ord[p]), Promote(ord, p))
    ensures LinksAgree(Relink(c, ord[p]), Promote(ord, p))
  {
    var r := Relink(c, ord[p]);
    var o := Promote(ord, p);
    assert |r.slots| == |c.slots|;
    PromotePermutes(ord, p);
    assert InArena(r, o) by {
      forall k | 0 <= k < |o| ensures o[k] < |r.slots| {
        assert o[k] in ord;
      }
    }
    forall k | 0 <= k < |o| ensures LinkAt(r, o, k) {
      RelinkMemberLink(c, ord, p, k);
    }
  }

  lemma RelinkMemberFrees(c: Cache, ord: seq<nat>, p: nat)
    requires Linked(c, ord)
    requires 0 < p < |ord|
    ensures FreeCleared(Relink(c, ord[p]))
  {
    var r := Relink(c, ord[p]);
    forall j | 0 <= j < |r.slots| && r.slots[j].data.None?
      ensures r.slots[j].prev.None? && r.slots[j].next.None?
    {
      RelinkMemberFree(c, ord, p, j);
    }
  }

  lemma RelinkMemberTail(c: Cache, ord: seq<nat>, p: nat)
    requires InArena(c, ord) && NoDup(ord) && LinksAgree(c, ord) && Ends(c, ord)
    requires 0 < p < |ord|
    ensures Relink(c, ord[p]).tail == Last(Promote(ord, p))
  {
    var n := |ord|;
    var o := Promote(ord, p);
    var i := ord[p];
    assert c.head == Some(ord[0]) && c.tail == Some(ord[n - 1]);
    assert ord[0] != i;
    RelinkTailShape(c, i);
    var t := Relink(c, i).tail;
    if p == n - 1 {
      assert LinkAt(c, ord, p);
      assert t == Some(ord[n - 2]);
      assert o[n - 1] == ord[n - 2];
    } else {
      assert ord[n - 1] != i;
      assert t == Some(ord[n - 1]);
      assert o[n - 1] == ord[n - 1];
    }
  }

  // -----------------------------------------------------------------------
  // Unlinking and reaping

  /** The pointer writes of `Unlink` on a slot that is not its own neighbour. */
  lemma UnlinkShape(c: Cache, i: nat, j: nat)
    requires i < |c.slots| && j < |c.slots|
    requires c.slots[i].prev != Some(i) && c.slots[i].next != Some(i)
    ensures var r := Unlink(c, i); var e := c.slots[i];
      && r.slots[j].prev == (if j == i then None
                             else if e.next == Some(j) then e.prev
                             else c.slots[j].prev)
      && r.slots[j].next == (if j == i then None
                             else if e.prev == Some(j) then e.next
                             else c.slots[j].next)
      && r.head == (if c.head == Some(i) then e.next else c.head)
      && r.tail == (if c.tail == Some(i) then e.prev else c.tail)
  {
  }

  /** The links of the k-th entry after the p-th entry is unlinked. */
  lemma UnlinkMemberLink(c: Cache, ord: seq<nat>, p: nat, k: nat)
    requires InArena(c, ord) && NoDup(ord) && LinksAgree(c, ord)
    requires p < |ord| && k + 1 < |ord|
    ensures |Unlink(c, ord[p]).slots| == |c.slots|
    ensures LinkAt(Unlink(c, ord[p]), RemoveAt(ord, p), k)
  {
    var i := ord[p];
    var o := RemoveAt(ord, p);
    var n := |ord|;
    assert LinkAt(c, ord, p);
    assert p > 0 ==> ord[p - 1] != i;
    assert p + 1 < n ==> ord[p + 1] != i;
    UnlinkShape(c, i, o[k]);
    if k < p {
      assert o[k] == ord[k];
      assert LinkAt(c, ord, k);
      assert p + 1 < n ==> ord[k] != ord[p + 1];
      assert k + 1 < p ==> ord[k] != ord[p - 1];
      assert k + 1 < p ==> o[k + 1] == ord[k + 1];
      assert k + 1 == p && p + 1 < n ==> o[k + 1] == ord[p + 1];
    } else {
      assert o[k] == ord[k + 1];
      assert LinkAt(c, ord, k + 1);
      assert p > 0 ==> ord[k + 1] != ord[p - 1];
      assert k > p ==> ord[k + 1] != ord[p + 1];
      assert k > p ==> o[k - 1] == ord[k];
      assert k == p && p > 0 ==> o[k - 1] == ord[p - 1];
      assert k + 2 < n ==> o[k + 1] == ord[k + 2];
    }
  }

  lemma UnlinkMemberLinks(c: Cache, ord: seq<nat>, p: nat)
    requires InArena(c, ord) && NoDup(ord) && LinksAgree(c, ord)
    requires p < |ord|
    ensures InArena(Unlink(c, ord[p]), RemoveAt(ord, p))
    ensures LinksAgree(Unlink(c, ord[p]), RemoveAt(ord, p))
  {
    var r := Unlink(c, ord[p]);
    var o := RemoveAt(ord, p);
    RemoveAtMembers(ord, p);
    assert InArena(r, o) by {
      forall k | 0 <= k < |o| ensures o[k] < |r.slots| {
        assert o[k] in ord;
      }
    }
    forall k | 0 <= k < |o| ensures LinkAt(r, o, k) {
      UnlinkMemberLink(c, ord, p, k);
    }
  }

  /** A free slot keeps no neighbours when an entry is unlinked. */
  lemma UnlinkMemberFree(c: Cache, ord: seq<nat>, p: nat, j: nat)
    requires Linked(c, ord)
    requires p < |ord| && j < |c.slots| && Unlink(c, ord[p]).slots[j].data.None?
    ensures var r := Unlink(c, ord[p]); r.slots[j].prev.None? && r.slots[j].next.None?
  {
    var i := ord[p];
    assert LinkAt(c, ord, p);
    assert p > 0 ==> ord[p - 1] != i;
    assert p + 1 < |ord| ==> ord[p + 1] != i;
    UnlinkShape(c, i, j);
    if j != i {
      assert c.slots[j].data.None? && j !in ord;
      assert (p > 0 ==> j != ord[p - 1]) && (p + 1 < |ord| ==> j != ord[p + 1]);
    }
  }

  lemma UnlinkMemberEnds(c: Cache, ord: seq<nat>, p: nat)
    requires InArena(c, ord) && NoDup(ord) && LinksAgree(c, ord) && Ends(c, ord)
    requires p < |ord|
    ensures Ends(Unlink(c, ord[p]), RemoveAt(ord, p))
  {
    var i := ord[p];
    var n := |ord|;
    var o := RemoveAt(ord, p);
    assert LinkAt(c, ord, p);
    assert p > 0 ==> ord[p - 1] != i;
    assert p + 1 < n ==> ord[p + 1] != i;
    UnlinkShape(c, i, i);
    var r := Unlink(c, i);
    if p == 0 {
      assert r.head == NextOf(ord, 0);
      assert n > 1 ==> o[0] == ord[1];
    } else {
      assert ord[0] != i;
      assert o[0] == ord[0];
    }
    if p == n - 1 {
      assert r.tail == PrevOf(ord, p);
      assert n > 1 ==> o[n - 2] == ord[n - 2];
    } else {
      assert ord[n - 1] != i;
      assert o[n - 2] == ord[n - 1];
    }
  }

  /** Unlinking the p-th entry keeps the list linked, without that entry. */
  lemma UnlinkMember(c: Cache, ord: seq<nat>, p: nat)
    requires Linked(c, ord)
    requires p < |ord|
    ensures Linked(Unlink(c, ord[p]), RemoveAt(ord, p))
  {
    var r := Unlink(c, ord[p]);
    var o := RemoveAt(ord, p);
    RemoveAtMembers(ord, p);
    UnlinkMemberLinks(c, ord, p);
    UnlinkMemberEnds(c, ord, p);
    forall j | 0 <= j < |r.slots| && r.slots[j].data.None?
      ensures r.slots[j].prev.None? && r.slots[j].next.None?
    {
      UnlinkMemberFree(c, ord, p, j);
    }
    assert LiveExactly(r, o) by {
      forall j | 0 <= j < |r.slots| ensures r.slots[j].data.Some? <==> j in o {
        if j != ord[p] {
          assert r.slots[j].data == c.slots[j].data;
        }
      }
    }
  }

  /** Survivors depend only on the expiries of the listed slots. */
  lemma {:induction false} SurvivorsFrame(s1: seq<Slot>, s2: seq<Slot>, ord: seq<nat>, now: int)
    requires forall k | 0 <= k < |ord| :: ord[k] < |s1| && ord[k] < |s2|
    requires forall k | 0 <= k < |ord| :: s1[ord[k]].expiry == s2[ord[k]].expiry
    ensures Survivors(s1, ord, now) == Survivors(s2, ord, now)
  {
    if |ord| > 0 {
      SurvivorsFrame(s1, s2, ord[1..], now);
    }
  }

  /**
   * The reaping walk driven by the head-to-tail order instead of the
   * `next` pointers: unlink each expired entry of `rest` in turn.
   */
  ghost function Walk(c: Cache, rest: seq<nat>, now: int): (r: Cache)
    requires forall k | 0 <= k < |rest| :: rest[k] < |c.slots|
    ensures |r.slots| == |c.slots|
    decreases |rest|
  {
    if |rest| == 0 then c
    else if c.slots[rest[0]].expiry <= now then Walk(Unlink(c, rest[0]), rest[1..], now)
    else Walk(c, rest[1..], now)
  }

  /** Every entry still ahead of the walk is a slot of the arena. */
  lemma RestInArena(c: Cache, done: seq<nat>, rest: seq<nat>)
    requires InArena(c, done + rest)
    ensures forall k | 0 <= k < |rest| :: rest[k] < |c.slots|
  {
    assert forall k | 0 <= k < |rest| :: rest[k] == (done + rest)[|done| + k];
  }

  /** Moving the first entry of `rest` to the end of `done`. */
  lemma ShiftOne(done: seq<nat>, rest: seq<nat>)
    requires 0 < |rest|
    ensures (done + [rest[0]]) + rest[1..] == done + rest
  {
    assert rest == [rest[0]] + rest[1..];
  }

  /** One step of `Survivors`, with the entries already kept in front. */
  lemma SurvivorsStep(s: seq<Slot>, done: seq<nat>, rest: seq<nat>, now: int)
    requires 0 < |rest| && forall k | 0 <= k < |rest| :: rest[k] < |s|
    ensures s[rest[0]].expiry > now ==>
      (done + [rest[0]]) + Survivors(s, rest[1..], now) == done + Survivors(s, rest, now)
    ensures s[rest[0]].expiry <= now ==> Survivors(s, rest[1..], now) == Survivors(s, rest, now)
  {
  }

  /** The entry the walk stands on points at the next one in the order. */
  lemma StepNext(c: Cache, done: seq<nat>, rest: seq<nat>)
    requires Linked(c, done + rest)
    requires 0 < |rest| && rest[0] < |c.slots|
    ensures c.slots[rest[0]].next == First(rest[1..])
  {
    var ord := done + rest;
    var p := |done|;
    assert ord[p] == rest[0];
    assert LinkAt(c, ord, p);
    if |rest| > 1 {
      assert ord[p + 1] == rest[1];
    }
  }

  /** Unlinking the expired entry the walk stands on. */
  lemma StepExpired(c: Cache, done: seq<nat>, rest: seq<nat>, now: int)
    requires Linked(c, done + rest)
    requires 0 < |rest| && forall k | 0 <= k < |rest| :: rest[k] < |c.slots|
    requires c.slots[rest[0]].expiry <= now
    ensures Linked(Unlink(c, rest[0]), done + rest[1..])
    ensures Survivors(Unlink(c, rest[0]).slots, rest[1..], now) == Survivors(c.slots, rest, now)
  {
    var ord := done + rest;
    var p := |done|;
    assert ord[p] == rest[0];
    UnlinkMember(c, ord, p);
    assert RemoveAt(ord, p) == done + rest[1..];
    SurvivorsFrame(Unlink(c, rest[0]).slots, c.slots, rest[1..], now);
    SurvivorsStep(c.slots, done, rest, now);
  }

  /**
   * The walk, part way: the entries in `done` have been kept and the walk
   * stands at the first entry of `rest`. It ends with exactly the
   * unexpired entries of `rest` after `done`, still linked.
   */
  lemma {:induction false} WalkLinked(c: Cache, done: seq<nat>, rest: seq<nat>, now: int)
    requires Linked(c, done + rest)
    ensures forall k | 0 <= k < |rest| :: rest[k] < |c.slots|
    ensures Linked(Walk(c, rest, now), done + Survivors(c.slots, rest, now))
    decreases |rest|, 1
  {
    RestInArena(c, done, rest);
    if |rest| == 0 {
      assert done + rest == done;
      assert done + Survivors(c.slots, rest, now) == done;
    } else if c.slots[rest[0]].expiry <= now {
      WalkExpiredCase(c, done, rest, now);
    } else {
      WalkKeptCase(c, done, rest, now);
    }
  }

  lemma {:induction false} WalkExpiredCase(c: Cache, done: seq<nat>, rest: seq<nat>, now: int)
    requires Linked(c, done + rest)
    requires 0 < |rest| && forall k | 0 <= k < |rest| :: rest[k] < |c.slots|
    requires c.slots[rest[0]].expiry <= now
    ensures Linked(Walk(c, rest, now), done + Survivors(c.slots, rest, now))
    decreases |rest|, 0
  {
    StepExpired(c, done, rest, now);
    WalkLinked(Unlink(c, rest[0]), done, rest[1..], now);
  }

  lemma {:induction false} WalkKeptCase(c: Cache, done: seq<nat>, rest: seq<nat>, now: int)
    requires Linked(c, done + rest)
    requires 0 < |rest| && forall k | 0 <= k < |rest| :: rest[k] < |c.slots|
    requires c.slots[rest[0]].expiry > now
    ensures Linked(Walk(c, rest, now), done + Survivors(c.slots, rest, now))
    decreases |rest|, 0
  {
    ShiftOne(done, rest);
    SurvivorsStep(c.slots, done, rest, now);
    var done', rest' := done + [rest[0]], rest[1..];
    WalkLinked(c, done', rest', now);
  }

  /**
   * On a linked cache the pointer-chasing walk of `Reap`, given enough
   * fuel, visits exactly the entries of the order and so equals `Walk`.
   */
  lemma {:induction false} ReapIsWalk(c: Cache, done: seq<nat>, rest: seq<nat>, fuel: nat, now: int)
    requires Linked(c, done + rest)
    requires fuel >= |rest|
    ensures forall k | 0 <= k < |rest| :: rest[k] < |c.slots|
    ensures Reap(c, First(rest), fuel, now) == Walk(c, rest, now)
    decreases |rest|, 2
  {
    RestInArena(c, done, rest);
    if |rest| > 0 {
      StepNext(c, done, rest);
      if c.slots[rest[0]].expiry <= now {
        ReapExpiredCase(c, done, rest, fuel, now);
      } else {
        ReapKeptCase(c, done, rest, fuel, now);
      }
    }
  }

  /**
   * One step of both walks over an expired entry: if they agree after
   * unlinking it, they agree before.
   */
  lemma UnfoldExpired(c: Cache, rest: seq<nat>, fuel: nat, now: int)
    requires 0 < |rest| <= fuel && forall k | 0 <= k < |rest| :: rest[k] < |c.slots|
    requires c.slots[rest[0]].next == First(rest[1..])
    requires c.slots[rest[0]].expiry <= now
    requires Reap(Unlink(c, rest[0]), First(rest[1..]), fuel - 1, now) == Walk(Unlink(c, rest[0]), rest[1..], now)
    ensures Reap(c, First(rest), fuel, now) == Walk(c, rest, now)
  {
  }

  /** One step of both walks over a kept entry. */
  lemma UnfoldKept(c: Cache, rest: seq<nat>, fuel: nat, now: int)
    requires 0 < |rest| <= fuel && forall k | 0 <= k < |rest| :: rest[k] < |c.slots|
    requires c.slots[rest[0]].next == First(rest[1..])
    requires c.slots[rest[0]].expiry > now
    requires Reap(c, First(rest[1..]), fuel - 1, now) == Walk(c, rest[1..], now)
    ensures Reap(c, First(rest), fuel, now) == Walk(c, rest, now)
  {
  }

  lemma {:induction false} ReapExpiredCase(c: Cache, done: seq<nat>, rest: seq<nat>, fuel: nat, now: int)
    requires Linked(c, done + rest)
    requires 0 < |rest| <= fuel && forall k | 0 <= k < |rest| :: rest[k] < |c.slots|
    requires c.slots[rest[0]].next == First(rest[1..])
    requires c.slots[rest[0]].expiry <= now
    ensures Reap(c, First(rest), fuel, now) == Walk(c, rest, now)
    decreases |rest|, 1
  {
    StepExpired(c, done, rest, now);
    ReapAfterUnlink(c, done, rest, fuel, now);
  }

  lemma {:induction false} ReapAfterUnlink(c: Cache, done: seq<nat>, rest: seq<nat>, fuel: nat, now: int)
    requires 0 < |rest| <= fuel && forall k | 0 <= k < |rest| :: rest[k] < |c.slots|
    requires Linked(Unlink(c, rest[0]), done + rest[1..])
    requires c.slots[rest[0]].next == First(rest[1..])
    requires c.slots[rest[0]].expiry <= now
    ensures Reap(c, First(rest), fuel, now) == Walk(c, rest, now)
    decreases |rest|, 0
  {
    ReapIsWalk(Unlink(c, rest[0]), done, rest[1..], fuel - 1, now);
    UnfoldExpired(c, rest, fuel, now);
  }

  lemma {:induction false} ReapKeptCase(c: Cache, done: seq<nat>, rest: seq<nat>, fuel: nat, now: int)
    requires Linked(c, done + rest)
    requires 0 < |rest| <= fuel && forall k | 0 <= k < |rest| :: rest[k] < |c.slots|
    requires c.slots[rest[0]].next == First(rest[1..])
    requires c.slots[rest[0]].expiry > now
    ensures Reap(c, First(rest), fuel, now) == Walk(c, rest, now)
    decreases |rest|, 0
  {
    ShiftOne(done, rest);
    var done', rest' := done + [rest[0]], rest[1..];
    ReapIsWalk(c, done', rest', fuel - 1, now);
    UnfoldKept(c, rest, fuel, now);
  }

  /**
   * `cache_remove_expired` keeps the list linked; the new order is the old
   * one with the expired entries taken out.
   */
  lemma RemoveExpiredLinked(c: Cache, ord: seq<nat>, now: int)
    requires Linked(c, ord)
    ensures Linked(RemoveExpired(c, now), Survivors(c.slots, ord, now))
  {
    LiveBound(c, ord);
    assert [] + ord == ord;
    ReapIsWalk(c, [], ord, |c.slots|, now);
    WalkLinked(c, [], ord, now);
    assert [] + ord == ord;
    assert [] + Survivors(c.slots, ord, now) == Survivors(c.slots, ord, now);
  }

  /**
   * After `cache_remove_expired` a slot holds data exactly when it held
   * data before and had not expired.
   */
  lemma RemoveExpiredExact(c: Cache, ord: seq<nat>, now: int)
    requires Linked(c, ord)
    ensures forall j | 0 <= j < |c.slots| ::
      RemoveExpired(c, now).slots[j].data.Some? <==> c.slots[j].data.Some? && c.slots[j].expiry > now
  {
    RemoveExpiredLinked(c, ord, now);
  }

  // ---------------------------------------------------------------------
  // Find

  /**
   * Reference definition of a lookup on the head-to-tail order: the
   * position in `ord` of the first entry with key `url` that has not
   * expired at `now`.
   */
  function FirstHit(s: seq<Slot>, ord: seq<nat>, url: string, now: int): (r: Option<nat>)
    requires forall k | 0 <= k < |ord| :: ord[k] < |s|
    ensures r.Some? ==> r.value < |ord| && s[ord[r.value]].url == url && s[ord[r.value]].expiry > now
    ensures r.Some? ==> forall k | 0 <= k < r.value :: !(s[ord[k]].url == url && s[ord[k]].expiry > now)
    ensures r.None? ==> forall k | 0 <= k < |ord| :: !(s[ord[k]].url == url && s[ord[k]].expiry > now)
    decreases |ord|
  {
    if |ord| == 0 then None
    else if s[ord[0]].url == url && s[ord[0]].expiry > now then Some(0)
    else match FirstHit(s, ord[1..], url, now)
      case None => None
      case Some(p) => Some(p + 1)
  }

  /** The slot `FirstHit` designates, if any. */
  function HitSlot(s: seq<Slot>, ord: seq<nat>, url: string, now: int): Option<nat>
    requires forall k | 0 <= k < |ord| :: ord[k] < |s|
  {
    match FirstHit(s, ord, url, now)
    case None => None
    case Some(p) => Some(ord[p])
  }

  /** One step of the scan: if it agrees with `HitSlot` from the next entry on, it agrees here. */
  lemma UnfoldScan(s: seq<Slot>, rest: seq<nat>, fuel: nat, url: string, now: int)
    requires 0 < |rest| <= fuel && forall k | 0 <= k < |rest| :: rest[k] < |s|
    requires s[rest[0]].next == First(rest[1..])
    requires !(s[rest[0]].url == url && s[rest[0]].expiry > now) ==>
      Scan(s, First(rest[1..]), fuel - 1, url, now) == HitSlot(s, rest[1..], url, now)
    ensures Scan(s, First(rest), fuel, url, now) == HitSlot(s, rest, url, now)
  {
    if !(s[rest[0]].url == url && s[rest[0]].expiry > now) {
      match FirstHit(s, rest[1..], url, now)
      case None =>
      case Some(p) => assert rest[1..][p] == rest[p + 1];
    }
  }

  /** On a linked cache the scan from the head finds exactly `HitSlot`. */
  lemma {:induction false} ScanIsFirstHit(c: Cache, done: seq<nat>, rest: seq<nat>, fuel: nat, url: string, now: int)
    requires Linked(c, done + rest)
    requires fuel >= |rest|
    ensures forall k | 0 <= k < |rest| :: rest[k] < |c.slots|
    ensures Scan(c.slots, First(rest), fuel, url, now) == HitSlot(c.slots, rest, url, now)
    decreases |rest|
  {
    RestInArena(c, done, rest);
    if |rest| > 0 {
      StepNext(c, done, rest);
      if !(c.slots[rest[0]].url == url && c.slots[rest[0]].expiry > now) {
        ShiftOne(done, rest);
        var done', rest' := done + [rest[0]], rest[1..];
        ScanIsFirstHit(c, done', rest', fuel - 1, url, now);
      }
      UnfoldScan(c.slots, rest, fuel, url, now);
    }
  }

  /**
   * `cache_find` on a linked cache: it hits exactly the first unexpired
   * entry with the key in head-to-tail order, which is live, and moves it
   * to the front; on a miss nothing changes.
   */
  lemma FindLinked(c: Cache, ord: seq<nat>, url: string, now: int)
    requires Linked(c, ord)
    ensures forall k | 0 <= k < |ord| :: ord[k] < |c.slots|
    ensures var r := Find(c, url, now);
      match FirstHit(c.slots, ord, url, now)
      case None => r.hit.None? && r.cache == c
      case Some(p) =>
        && r.hit == Some(ord[p])
        && c.slots[ord[p]].data.Some?
        && Linked(r.cache, Promote(ord, p))
  {
    LiveBound(c, ord);
    assert [] + ord == ord;
    ScanIsFirstHit(c, [], ord, |c.slots|, url, now);
    match FirstHit(c.slots, ord, url, now)
    case None =>
    case Some(p) =>
      assert ord[p] in ord;
      RelinkMember(c, ord, p);
  }

  // ---------------------------------------------------------------------
  // Add

  /** Refilling a listed slot keeps the list as it is. */
  lemma FillMember(c: Cache, ord: seq<nat>, p: nat, key: string, body: seq<char>, expiry: int)
    requires Linked(c, ord)
    requires p < |ord|
    ensures Linked(Fill(c, ord[p], key, body, expiry), ord)
  {
    var r := Fill(c, ord[p], key, body, expiry);
    assert ord[p] in ord;
    assert forall k | 0 <= k < |ord| :: LinkAt(c, ord, k) ==> LinkAt(r, ord, k);
  }

  /** The links after filling free slot `j` and moving it to the front, as seen from slot `x`. */
  lemma RelinkFreshShape(c: Cache, j: nat, key: string, body: seq<char>, expiry: int, x: nat)
    requires j < |c.slots| && x < |c.slots| && c.head != Some(j) && c.tail != Some(j)
    requires c.slots[j].prev.None? && c.slots[j].next.None?
    ensures var r := Relink(Fill(c, j, key, body, expiry), j);
      && r.slots[x].prev == (if x == j then None else if c.head == Some(x) then Some(j) else c.slots[x].prev)
      && r.slots[x].next == (if x == j then c.head else c.slots[x].next)
      && r.tail == (if c.head.None? then Some(j) else c.tail)
  {
    RelinkShape(Fill(c, j, key, body, expiry), j, x);
    RelinkTailShape(Fill(c, j, key, body, expiry), j);
  }

  lemma RelinkFreshLinks(c: Cache, ord: seq<nat>, j: nat, key: string, body: seq<char>, expiry: int)
    requires Linked(c, ord)
    requires j < |c.slots| && c.slots[j].data.None?
    ensures InArena(Relink(Fill(c, j, key, body, expiry), j), [j] + ord)
    ensures LinksAgree(Relink(Fill(c, j, key, body, expiry), j), [j] + ord)
  {
    var r := Relink(Fill(c, j, key, body, expiry), j);
    var o := [j] + ord;
    assert j !in ord;
    assert c.head != Some(j) && c.tail != Some(j);
    forall k | 0 <= k < |o| ensures o[k] < |r.slots| && LinkAt(r, o, k) {
      RelinkFreshShape(c, j, key, body, expiry, o[k]);
      if k > 0 {
        assert o[k] == ord[k - 1];
        assert LinkAt(c, ord, k - 1);
        assert k > 1 ==> ord[k - 1] != ord[0];
      }
    }
  }

  lemma RelinkFreshFrees(c: Cache, ord: seq<nat>, j: nat, key: string, body: seq<char>, expiry: int)
    requires Linked(c, ord)
    requires j < |c.slots| && c.slots[j].data.None?
    ensures FreeCleared(Relink(Fill(c, j, key, body, expiry), j))
  {
    var f := Fill(c, j, key, body, expiry);
    var r := Relink(f, j);
    assert j !in ord;
    assert c.head != Some(j) && c.tail != Some(j);
    forall x | 0 <= x < |r.slots| && r.slots[x].data.None?
      ensures r.slots[x].prev.None? && r.slots[x].next.None?
    {
      assert SameContents(r.slots[x], f.slots[x]);
      RelinkFreshShape(c, j, key, body, expiry, x);
      assert x !in ord;
    }
  }

  /** Filling a free slot and moving it to the front puts it before the old order. */
  lemma RelinkFresh(c: Cache, ord: seq<nat>, j: nat, key: string, body: seq<char>, expiry: int)
    requires Linked(c, ord)
    requires j < |c.slots| && c.slots[j].data.None?
    ensures Linked(Relink(Fill(c, j, key, body, expiry), j), [j] + ord)
  {
    var f := Fill(c, j, key, body, expiry);
    var r := Relink(f, j);
    var o := [j] + ord;
    assert j !in ord;
    assert c.head != Some(j) && c.tail != Some(j);
    RelinkFreshLinks(c, ord, j, key, body, expiry);
    RelinkFreshFrees(c, ord, j, key, body, expiry);
    forall x | 0 <= x < |r.slots| ensures r.slots[x].data.Some? <==> x in o {
      assert SameContents(r.slots[x], f.slots[x]);
    }
    RelinkFreshShape(c, j, key, body, expiry, j);
    assert NoDup(o);
  }

  /** When no slot is free, every slot is listed. */
  lemma FullListed(c: Cache, ord: seq<nat>)
    requires Linked(c, ord)
    requires FirstFree(c.slots, 0).None?
    ensures |ord| == CacheSize
  {
    LiveBound(c, ord);
    NoDupCard(ord);
    NoDupCard(Upto(CacheSize));
    assert Members(Upto(CacheSize)) <= Members(ord) by {
      forall x | x in Members(Upto(CacheSize)) ensures x in Members(ord) {
        assert c.slots[x].data.Some?;
      }
    }
    SubsetCard(Members(Upto(CacheSize)), Members(ord));
  }

  /**
   * `cache_add` on a linked cache: after reaping, the new entry goes into
   * the lowest free slot in front of the survivors; only when all slots
   * are live is the least recently used survivor evicted, and its slot
   * moves to the front.
   */
  lemma AddLinked(c: Cache, ord: seq<nat>, url: string, data: seq<char>, size: nat, expiry: int, now: int)
    requires Linked(c, ord)
    requires size <= |data|
    ensures forall k | 0 <= k < |ord| :: ord[k] < |c.slots|
    ensures var S := Survivors(c.slots, ord, now);
      var r := Add(c, url, data, size, expiry, now);
      match FirstFree(RemoveExpired(c, now).slots, 0)
      case Some(j) => Linked(r, [j] + S)
      case None => |S| == CacheSize && Linked(r, [S[|S| - 1]] + S[..|S| - 1])
  {
    LiveBound(c, ord);
    RemoveExpiredLinked(c, ord, now);
    var S := Survivors(c.slots, ord, now);
    var c1 := RemoveExpired(c, now);
    match FirstFree(c1.slots, 0)
    case Some(j) =>
      RelinkFresh(c1, S, j, StoredKey(url), data[..size], expiry);
    case None =>
      FullListed(c1, S);
      var n := |S|;
      FillMember(c1, S, n - 1, StoredKey(url), data[..size], expiry);
      RelinkMember(Fill(c1, S[n - 1], StoredKey(url), data[..size], expiry), S, n - 1);
      assert Promote(S, n - 1) == [S[n - 1]] + S[..n - 1];
  }

  /**
   * An entry just added with a key that fits is found by the next lookup
   * with that key while it is unexpired, with the data that was stored.
   */
  lemma AddThenFind(c: Cache, ord: seq<nat>, url: string, data: seq<char>, size: nat, expiry: int, now: int, later: int)
    requires Linked(c, ord)
    requires size <= |data| && |url| < UrlSize && later < expiry
    ensures var a := Add(c, url, data, size, expiry, now);
      var l := Find(a, url, later);
      && l.hit.Some? && l.hit == a.head
      && l.cache.slots[l.hit.value].data == Some(data[..size])
  {
    LiveBound(c, ord);
    RemoveExpiredLinked(c, ord, now);
    var c1 := RemoveExpired(c, now);
    var S := Survivors(c.slots, ord, now);
    if FirstFree(c1.slots, 0).None? {
      FullListed(c1, S);
    }
  }

  /**
   * A failed allocation rolls the insertion back: the cache is the reaped
   * cache, well linked with the survivors of reaping in their order, and
   * no unexpired entry loses its data.
   */
  lemma AddOrFailLinked(c: Cache, ord: seq<nat>, url: string, data: seq<char>, size: nat, expiry: int, now: int)
    requires Linked(c, ord)
    requires size <= |data|
    ensures forall k | 0 <= k < |ord| :: ord[k] < |c.slots|
    ensures var r := AddOrFail(c, url, data, size, expiry, now, false);
      && Linked(r, Survivors(c.slots, ord, now))
      && forall j | 0 <= j < |c.slots| && c.slots[j].expiry > now :: r.slots[j].data == c.slots[j].data
  {
    LiveBound(c, ord);
    RemoveExpiredLinked(c, ord, now);
  }
}

=== FILE: cache_scenario.dfy ===
/**
 * The scenario of `tests/cache_test.c`, stated for any start time `t`:
 * add `http://example.com` for 10 seconds and `http://google.com` for 5,
 * look up the first, then reap 6 seconds later.
 */
module CacheScenario {
  import opened Optional
  import opened Seqs
  import opened LruCache
  import opened CacheIntegrity

  const Example: string := "http://example.com"
  const Google: string := "http://google.com"
  /** The payloads the test stores, with the terminating NUL its sizes count. */
  const ExampleData: string := "Example Data\0"
  const GoogleData: string := "Google Data\0"

  function AfterFirstAdd(t: int): Cache {
    Add(Init(), Example, ExampleData, 13, t + 10, t)
  }

  function AfterSecondAdd(t: int): Cache {
    Add(AfterFirstAdd(t), Google, GoogleData, 12, t + 5, t)
  }

  /** The first entry goes into slot 0 of the empty cache. */
  lemma FirstAdd(t: int)
    ensures var c := AfterFirstAdd(t);
      && Linked(c, [0])
      && c.slots[0] == Slot(Example, Some(ExampleData), t + 10, None, None)
      && forall j | 1 <= j < |c.slots| :: c.slots[j].url == ""
  {
    InitLinked();
    assert RemoveExpired(Init(), t) == Init();
    assert FirstFree(Init().slots, 0) == Some(0);
    AddLinked(Init(), [], Example, ExampleData, 13, t + 10, t);
    assert [0] + Survivors(Init().slots, [], t) == [0];
    assert ExampleData[..13] == ExampleData;
  }

  /** The second entry goes into slot 1, in front of the first; nothing expires yet. */
  lemma SecondAdd(t: int)
    ensures var c := AfterSecondAdd(t);
      && Linked(c, [1, 0])
      && c.slots[0].url == Example && c.slots[0].data == Some(ExampleData) && c.slots[0].expiry == t + 10
      && c.slots[1].url == Google && c.slots[1].data == Some(GoogleData) && c.slots[1].expiry == t + 5
      && forall j | 2 <= j < |c.slots| :: c.slots[j].url == ""
  {
    var c1 := AfterFirstAdd(t);
    FirstAdd(t);
    var r1 := RemoveExpired(c1, t);
    assert Survivors(c1.slots, [0], t) == [0];
    assert FirstFree(r1.slots, 0) == Some(1) by {
      assert r1.slots[0].data.Some? && r1.slots[1].data.None? by {
        RemoveExpiredExact(c1, [0], t);
      }
    }
    AddLinked(c1, [0], Google, GoogleData, 12, t + 5, t);
    assert [1] + [0] == [1, 0];
    assert GoogleData[..12] == GoogleData;
  }

  /**
   * The lookup finds the example entry and returns its data; after six
   * seconds reaping frees the google entry and keeps the example entry, so
   * a lookup of the first misses and of the second still hits.
   */
  lemma CacheTestScenario(t: int)
    ensures var l := Find(AfterSecondAdd(t), Example, t);
      && l.hit == Some(0) && l.cache.slots[0].data == Some(ExampleData)
      && var c := RemoveExpired(l.cache, t + 6);
      && c.slots[1].data.None? && c.slots[0].data == Some(ExampleData)
      && Find(c, Google, t + 6).hit.None?
      && Find(c, Example, t + 6).hit == Some(0)
  {
    var c2 := AfterSecondAdd(t);
    SecondAdd(t);
    FindLinked(c2, [1, 0], Example, t);
    assert FirstHit(c2.slots, [1, 0], Example, t) == Some(1) by {
      assert c2.slots[1].url != Example;
    }
    var l := Find(c2, Example, t);
    assert Promote([1, 0], 1) == [0, 1];
    assert SameContents(l.cache.slots[0], c2.slots[0]);
    ExpireScenario(l.cache, t);
  }

  /** The reaping step of the scenario, from the state after the lookup. */
  lemma ExpireScenario(c: Cache, t: int)
    requires Linked(c, [0, 1])
    requires c.slots[0].url == Example && c.slots[0].data == Some(ExampleData) && c.slots[0].expiry == t + 10
    requires c.slots[1].url == Google && c.slots[1].expiry == t + 5
    requires forall j | 2 <= j < |c.slots| :: c.slots[j].url == ""
    ensures var r := RemoveExpired(c, t + 6);
      && r.slots[1].data.None? && r.slots[0].data == Some(ExampleData)
      && Find(r, Google, t + 6).hit.None?
      && Find(r, Example, t + 6).hit == Some(0)
  {
    var r := RemoveExpired(c, t + 6);
    RemoveExpiredExact(c, [0, 1], t + 6);
    ReapedToExample(c, t);
    FindsAfterReap(r, t);
  }

  /** Reaping at `t + 6` leaves only slot 0 listed. */
  lemma ReapedToExample(c: Cache, t: int)
    requires Linked(c, [0, 1])
    requires c.slots[0].expiry == t + 10 && c.slots[1].expiry == t + 5
    ensures Linked(RemoveExpired(c, t + 6), [0])
  {
    RemoveExpiredLinked(c, [0, 1], t + 6);
    ScenarioSurvivors(c.slots, t);
  }

  lemma ScenarioSurvivors(s: seq<Slot>, t: int)
    requires |s| >= 2 && s[0].expiry == t + 10 && s[1].expiry == t + 5
    ensures Survivors(s, [0, 1], t + 6) == [0]
  {
    var o: seq<nat> := [0, 1];
    assert o[1..] == [1];
    assert Survivors(s, [1], t + 6) == [] by {
      var p: seq<nat> := [1];
      assert p[1..] == [];
      assert Survivors(s, p[1..], t + 6) == [];
    }
    assert Survivors(s, o, t + 6) == [0] + Survivors(s, o[1..], t + 6);
  }

  /** On the reaped cache the example entry is found and the google entry is not. */
  lemma FindsAfterReap(r: Cache, t: int)
    requires Linked(r, [0])
    requires r.slots[0].url == Example && r.slots[0].expiry == t + 10
    requires r.slots[1].url == Google && r.slots[1].expiry == t + 5
    requires forall j | 2 <= j < |r.slots| :: r.slots[j].url == ""
    ensures Find(r, Google, t + 6).hit.None?
    ensures Find(r, Example, t + 6).hit == Some(0)
  {
    FindLinked(r, [0], Example, t + 6);
    assert FirstHit(r.slots, [0], Example, t + 6) == Some(0);
    assert forall j | 0 <= j < |r.slots| :: !(r.slots[j].url == Google && r.slots[j].expiry > t + 6);
  }
}

=== FILE: handler.dfy ===
/**
 * `handle_client` (`src/proxy.c`) as a function from the cache and what
 * the outside world answers to the cache after the request and the
 * effects on the two sockets. Every call into the system (receiving,
 * resolving the host, connecting, each receive from the origin, the clock
 * and the allocation inside `cache_add`) is a field of `Io`; the effects
 * are the `Action`s in the order the C performs them.
 */
module Handler {
  import opened Optional
  import opened Seqs
  import opened LruCache
  import opened CacheIntegrity
  import opened Request

  /** Seconds a fetched response stays in the cache. */
  const Ttl: int := 3600

  /** An effect on the client or the origin socket. */
  datatype Action =
    | SendClient(bytes: string)
    | SendOrigin(bytes: string)
    | CloseClient
    | CloseOrigin

  /**
   * What the environment answers during one `handle_client` call:
   * `received` is the client's request (`None` when `recv` fails),
   * `findTime` the clock during `cache_find`, `resolves` and `connects`
   * the outcome of `gethostbyname` and `connect`, `startTime` the clock
   * when the expiry is computed, `chunks` the successive receives from
   * the origin up to the one that returns 0 or less (so every chunk is
   * non-empty: an `Io` with an empty chunk describes no run of the
   * loop), `addTime` the clock inside `cache_add` and `allocOk` whether
   * its copy of the response could be allocated.
   */
  datatype Io = Io(
    received: Option<string>,
    findTime: int,
    resolves: bool,
    connects: bool,
    startTime: int,
    chunks: seq<string>,
    addTime: int,
    allocOk: bool)

  datatype Handled = Handled(cache: Cache, actions: seq<Action>)

  /** The request text in the zeroed receive buffer, read as a C string. */
  function Received(bytes: string): (r: string)
    ensures |r| <= BufferSize && '\0' !in r
  {
    CString(if |bytes| <= BufferSize then bytes else bytes[..BufferSize])
  }

  /** Forwarding each chunk from the origin to the client as it arrives. */
  function Relay(chunks: seq<string>): (r: seq<Action>)
    ensures |r| == |chunks|
    ensures forall k | 0 <= k < |chunks| :: r[k] == SendClient(chunks[k])
  {
    seq(|chunks|, k requires 0 <= k < |chunks| => SendClient(chunks[k]))
  }

  /** `handle_client`, with the corrected cache. */
  function HandleClient(c: Cache, io: Io): (r: Handled)
    ensures Count(r.actions, CloseClient) == 1
    ensures Count(r.actions, CloseOrigin) <= 1
    ensures |OriginBytes(r.actions)| < BufferSize
  {
    match io.received
    case None => Handled(c, [CloseClient])
    case Some(bytes) =>
      match ExtractUrl(Received(bytes))
      case None => Handled(c, [CloseClient])
      case Some(url) => Serve(c, url, io)
  }

  /** From the cache lookup on: answer a hit, or fetch on a miss. */
  function Serve(c: Cache, url: string, io: Io): (r: Handled)
    ensures Count(r.actions, CloseClient) == 1
    ensures Count(r.actions, CloseOrigin) <= 1
    ensures |OriginBytes(r.actions)| < BufferSize
  {
    var l := Find(c, url, io.findTime);
    match l.hit
    case Some(i) =>
      AnswerCounts(Payload(l.cache.slots[i]));
      Handled(l.cache, [SendClient(Payload(l.cache.slots[i])), CloseClient])
    case None => Fetch(c, url, io)
  }

  /** The miss path: resolve, connect, forward the request and relay the response. */
  function Fetch(c: Cache, url: string, io: Io): (r: Handled)
    ensures Count(r.actions, CloseClient) == 1
    ensures Count(r.actions, CloseOrigin) <= 1
    ensures |OriginBytes(r.actions)| < BufferSize
  {
    match SplitUrl(url)
    case None => Handled(c, [CloseClient])
    case Some(o) =>
      if !io.resolves then Handled(c, [CloseClient])
      else if !io.connects then Handled(c, [CloseClient, CloseOrigin])
      else
        var body := Concat(io.chunks);
        var acts := [SendOrigin(UpstreamRequest(o))] + Relay(io.chunks) + [CloseClient, CloseOrigin];
        FetchCounts(o, io.chunks);
        Handled(AddOrFail(c, url, body, |body|, io.startTime + Ttl, io.addTime, io.allocOk), acts)
  }

  // ---------------------------------------------------------------------
  // What a request leads to

  /** The URL `handle_client` looks up for `io`, if the request has one. */
  function RequestedUrl(io: Io): (r: Option<string>)
    ensures r.Some? ==> io.received.Some? && r == ExtractUrl(Received(io.received.value))
    ensures io.received.Some? && ExtractUrl(Received(io.received.value)).Some? ==> r.Some?
    ensures r.Some? ==> |r.value| > 0 && SpaceFree(r.value)
  {
    match io.received
    case None => None
    case Some(bytes) => ExtractUrl(Received(bytes))
  }

  /**
   * A failed receive or a request that is not `GET <url>` only closes the
   * client: nothing is sent and the cache is untouched.
   */
  lemma RefusedRequest(c: Cache, io: Io)
    requires RequestedUrl(io).None?
    ensures HandleClient(c, io) == Handled(c, [CloseClient])
  {
  }

  /**
   * A request whose URL has a live entry is answered from the cache: the
   * client gets exactly the first live matching entry's data, the origin
   * is never contacted, and the entry becomes the most recently used.
   */
  lemma ServedFromCache(c: Cache, ord: seq<nat>, io: Io, p: nat)
    requires Linked(c, ord) && RequestedUrl(io).Some?
    requires forall k | 0 <= k < |ord| :: ord[k] < |c.slots|
    requires FirstHit(c.slots, ord, RequestedUrl(io).value, io.findTime) == Some(p)
    ensures var r := HandleClient(c, io);
      && c.slots[ord[p]].url == RequestedUrl(io).value
      && c.slots[ord[p]].data.Some?
      && r.actions == [SendClient(c.slots[ord[p]].data.value), CloseClient]
      && OriginBytes(r.actions) == []
      && Linked(r.cache, Promote(ord, p))
  {
    var url := RequestedUrl(io).value;
    FindLinked(c, ord, url, io.findTime);
    HitAnswered(c, io, ord[p]);
  }

  /** A hit is answered with the hit slot's payload, after the lookup's reordering. */
  lemma HitAnswered(c: Cache, io: Io, i: nat)
    requires RequestedUrl(io).Some?
    requires Find(c, RequestedUrl(io).value, io.findTime).hit == Some(i)
    ensures var l := Find(c, RequestedUrl(io).value, io.findTime);
      && i < |c.slots| && c.slots[i].url == RequestedUrl(io).value
      && HandleClient(c, io) == Handled(l.cache, [SendClient(Payload(c.slots[i])), CloseClient])
      && OriginBytes(HandleClient(c, io).actions) == []
  {
    var l := Find(c, RequestedUrl(io).value, io.findTime);
    assert SameContents(l.cache.slots[i], c.slots[i]);
    assert Payload(l.cache.slots[i]) == Payload(c.slots[i]);
    assert ExtractUrl(Received(io.received.value)) == RequestedUrl(io);
    AnswerCounts(Payload(c.slots[i]));
  }

  /**
   * On a miss for an `http://host/path` URL whose host resolves and
   * accepts the connection, the origin receives the formatted request,
   * the client receives the origin's response unchanged and in order,
   * and that response is offered to the cache under the URL with an
   * expiry one hour after the response loop starts.
   */
  lemma FetchRelaysResponse(c: Cache, io: Io)
    requires RequestedUrl(io).Some?
    requires Find(c, RequestedUrl(io).value, io.findTime).hit.None?
    requires SplitUrl(RequestedUrl(io).value).Some? && io.resolves && io.connects
    ensures var url := RequestedUrl(io).value;
      var r := HandleClient(c, io);
      && OriginBytes(r.actions) == UpstreamRequest(SplitUrl(url).value)
      && ClientBytes(r.actions) == Concat(io.chunks)
      && r.cache == AddOrFail(c, url, ClientBytes(r.actions), |ClientBytes(r.actions)|, io.startTime + Ttl, io.addTime, io.allocOk)
  {
    var url := RequestedUrl(io).value;
    assert HandleClient(c, io) == Fetch(c, url, io) by {
      assert ExtractUrl(Received(io.received.value)) == Some(url);
      assert HandleClient(c, io) == Serve(c, url, io);
    }
    FetchEffects(c, url, io);
  }

  /** The successful miss path, spelled out. */
  lemma FetchEffects(c: Cache, url: string, io: Io)
    requires SplitUrl(url).Some? && io.resolves && io.connects
    ensures var r := Fetch(c, url, io);
      && OriginBytes(r.actions) == UpstreamRequest(SplitUrl(url).value)
      && ClientBytes(r.actions) == Concat(io.chunks)
      && r.cache == AddOrFail(c, url, Concat(io.chunks), |Concat(io.chunks)|, io.startTime + Ttl, io.addTime, io.allocOk)
  {
    var o := SplitUrl(url).value;
    FetchShape(c, url, io);
    FetchCounts(o, io.chunks);
  }

  /** The result of the successful miss path. */
  lemma FetchShape(c: Cache, url: string, io: Io)
    requires SplitUrl(url).Some? && io.resolves && io.connects
    ensures var body := Concat(io.chunks);
      Fetch(c, url, io) == Handled(
        AddOrFail(c, url, body, |body|, io.startTime + Ttl, io.addTime, io.allocOk),
        [SendOrigin(UpstreamRequest(SplitUrl(url).value))] + Relay(io.chunks) + [CloseClient, CloseOrigin])
  {
  }

  /**
   * A host that cannot be resolved closes only the client; a refused
   * connection closes both sockets. In neither case is anything sent or
   * cached.
   */
  lemma OriginUnreachable(c: Cache, io: Io)
    requires RequestedUrl(io).Some?
    requires Find(c, RequestedUrl(io).value, io.findTime).hit.None?
    requires SplitUrl(RequestedUrl(io).value).Some?
    requires !io.resolves || !io.connects
    ensures var r := HandleClient(c, io);
      && r.cache == c
      && r.actions == (if io.resolves then [CloseClient, CloseOrigin] else [CloseClient])
  {
  }

  /**
   * The fetched response, once stored, answers the next request for the
   * same URL within the hour without contacting the origin, with exactly
   * the bytes the first client received.
   */
  lemma FetchedThenServed(c: Cache, ord: seq<nat>, io1: Io, io2: Io)
    requires Linked(c, ord)
    requires RequestedUrl(io1).Some? && |RequestedUrl(io1).value| < UrlSize
    requires Find(c, RequestedUrl(io1).value, io1.findTime).hit.None?
    requires SplitUrl(RequestedUrl(io1).value).Some? && io1.resolves && io1.connects && io1.allocOk
    requires RequestedUrl(io2) == RequestedUrl(io1)
    requires io2.findTime < io1.startTime + Ttl
    ensures var r1 := HandleClient(c, io1);
      var r2 := HandleClient(r1.cache, io2);
      r2.actions == [SendClient(ClientBytes(r1.actions)), CloseClient]
  {
    var url := RequestedUrl(io1).value;
    var body := Concat(io1.chunks);
    FetchRelaysResponse(c, io1);
    AddThenFind(c, ord, url, body, |body|, io1.startTime + Ttl, io1.addTime, io2.findTime);
    assert body[..|body|] == body;
  }

  /** A handled request leaves a well-linked cache well linked. */
  lemma HandleLinked(c: Cache, ord: seq<nat>, io: Io)
    requires Linked(c, ord)
    ensures exists o :: Linked(HandleClient(c, io).cache, o)
  {
    var r := HandleClient(c, io);
    if RequestedUrl(io).None? {
      assert r.cache == c;
    } else {
      var url := RequestedUrl(io).value;
      FindLinked(c, ord, url, io.findTime);
      match FirstHit(c.slots, ord, url, io.findTime)
      case Some(p) =>
        assert Linked(r.cache, Promote(ord, p));
      case None =>
        if SplitUrl(url).Some? && io.resolves && io.connects {
          var body := Concat(io.chunks);
          FetchRelaysResponse(c, io);
          StoreLinked(c, ord, url, body, io.startTime + Ttl, io.addTime, io.allocOk);
        } else {
          assert r.cache == c;
        }
    }
  }

  /** Storing a response, whether or not its copy is allocated, keeps the cache linked. */
  lemma StoreLinked(c: Cache, ord: seq<nat>, url: string, body: string, expiry: int, now: int, allocOk: bool)
    requires Linked(c, ord)
    ensures exists o :: Linked(AddOrFail(c, url, body, |body|, expiry, now, allocOk), o)
  {
    var o: seq<nat>;
    if allocOk {
      o := StoredLinked(c, ord, url, body, expiry, now);
    } else {
      o := DroppedLinked(c, ord, url, body, expiry, now);
    }
  }

  /** The order after a stored response: the new entry in front of the survivors. */
  lemma StoredLinked(c: Cache, ord: seq<nat>, url: string, body: string, expiry: int, now: int) returns (o: seq<nat>)
    requires Linked(c, ord)
    ensures Linked(Add(c, url, body, |body|, expiry, now), o)
    ensures Linked(AddOrFail(c, url, body, |body|, expiry, now, true), o)
  {
    var S := Survivors(c.slots, ord, now);
    AddLinked(c, ord, url, body, |body|, expiry, now);
    match FirstFree(RemoveExpired(c, now).slots, 0)
    case Some(j) =>
      o := [j] + S;
    case None =>
      o := [S[|S| - 1]] + S[..|S| - 1];
  }

  /** The order after a response whose copy could not be allocated: the survivors. */
  lemma DroppedLinked(c: Cache, ord: seq<nat>, url: string, body: string, expiry: int, now: int) returns (o: seq<nat>)
    requires Linked(c, ord)
    ensures Linked(AddOrFail(c, url, body, |body|, expiry, now, false), o)
  {
    AddOrFailLinked(c, ord, url, body, |body|, expiry, now);
    o := Survivors(c.slots, ord, now);
  }

  // ---------------------------------------------------------------------
  // Reading the effects back

  /** How often `a` occurs in `acts`. */
  function Count(acts: seq<Action>, a: Action): nat {
    if |acts| == 0 then 0 else (if acts[0] == a then 1 else 0) + Count(acts[1..], a)
  }

  /** Everything sent to the client, in order. */
  function ClientBytes(acts: seq<Action>): string {
    if |acts| == 0 then []
    else (if acts[0].SendClient? then acts[0].bytes else []) + ClientBytes(acts[1..])
  }

  /** Everything sent to the origin, in order. */
  function OriginBytes(acts: seq<Action>): string {
    if |acts| == 0 then []
    else (if acts[0].SendOrigin? then acts[0].bytes else []) + OriginBytes(acts[1..])
  }

  lemma {:induction false} CountAppend(a: seq<Action>, b: seq<Action>, x: Action)
    ensures Count(a + b, x) == Count(a, x) + Count(b, x)
  {
    if |a| > 0 {
      assert (a + b)[1..] == a[1..] + b;
      CountAppend(a[1..], b, x);
    } else {
      assert a + b == b;
    }
  }

  lemma {:induction false} ClientBytesAppend(a: seq<Action>, b: seq<Action>)
    ensures ClientBytes(a + b) == ClientBytes(a) + ClientBytes(b)
  {
    if |a| > 0 {
      assert (a + b)[1..] == a[1..] + b;
      ClientBytesAppend(a[1..], b);
    } else {
      assert a + b == b;
    }
  }

  lemma {:induction false} OriginBytesAppend(a: seq<Action>, b: seq<Action>)
    ensures OriginBytes(a + b) == OriginBytes(a) + OriginBytes(b)
  {
    if |a| > 0 {
      assert (a + b)[1..] == a[1..] + b;
      OriginBytesAppend(a[1..], b);
    } else {
      assert a + b == b;
    }
  }

  /**
   * Relaying closes nothing and sends nothing upstream, and the client
   * receives the chunks back to back.
   */
  lemma {:induction false} RelayEffects(chunks: seq<string>)
    ensures Count(Relay(chunks), CloseClient) == 0 && Count(Relay(chunks), CloseOrigin) == 0
    ensures OriginBytes(Relay(chunks)) == []
    ensures ClientBytes(Relay(chunks)) == Concat(chunks)
  {
    if |chunks| > 0 {
      assert Relay(chunks)[1..] == Relay(chunks[1..]);
      RelayEffects(chunks[1..]);
    }
  }

  /** The effects of answering from the cache, counted. */
  lemma AnswerCounts(bytes: string)
    ensures var acts := [SendClient(bytes), CloseClient];
      && Count(acts, CloseClient) == 1 && Count(acts, CloseOrigin) == 0
      && OriginBytes(acts) == [] && ClientBytes(acts) == bytes
  {
    var acts := [SendClient(bytes), CloseClient];
    assert acts[1..] == [CloseClient] && [CloseClient][1..] == [];
  }

  /** The effects of a successful fetch, counted. */
  lemma FetchCounts(o: Origin, chunks: seq<string>)
    ensures var acts := [SendOrigin(UpstreamRequest(o))] + Relay(chunks) + [CloseClient, CloseOrigin];
      && Count(acts, CloseClient) == 1 && Count(acts, CloseOrigin) == 1
      && OriginBytes(acts) == UpstreamRequest(o)
      && ClientBytes(acts) == Concat(chunks)
  {
    var head := [SendOrigin(UpstreamRequest(o))];
    var tail := [CloseClient, CloseOrigin];
    RelayEffects(chunks);
    CountAppend(head + Relay(chunks), tail, CloseClient);
    CountAppend(head, Relay(chunks), CloseClient);
    CountAppend(head + Relay(chunks), tail, CloseOrigin);
    CountAppend(head, Relay(chunks), CloseOrigin);
    OriginBytesAppend(head + Relay(chunks), tail);
    OriginBytesAppend(head, Relay(chunks));
    ClientBytesAppend(head + Relay(chunks), tail);
    ClientBytesAppend(head, Relay(chunks));
  }
}

=== FILE: request.dfy ===
/**
 * The text handling of `handle_client` (`src/proxy.c`): reading the
 * request line with `sscanf("%s %s %s")`, splitting an absolute URL into
 * host and path with `sscanf("http://%[^/]%s")`, and formatting the
 * request sent to the origin with `snprintf` into a `BUFFER_SIZE` buffer.
 *
 * Where the C reads a buffer that `sscanf` left unassigned (no request
 * line at all, a URL that is not `http://host/path`), the behaviour is
 * undefined; the model refuses such input with `None`.
 */
module Request {
  import opened Optional

  /** `BUFFER_SIZE`: the receive buffer and the upstream request buffer. */
  const BufferSize: nat := 1024

  /** `isspace` in the C locale: the separators `%s` skips. */
  predicate IsSpace(c: char) {
    c == ' ' || c == '\t' || c == '\n' || c == '\r' || c == '\U{000B}' || c == '\U{000C}'
  }

  /** No separator occurs in `s`. */
  predicate SpaceFree(s: string) {
    forall k | 0 <= k < |s| :: !IsSpace(s[k])
  }

  /** Only separators occur in `s`. */
  predicate AllSpace(s: string) {
    forall k | 0 <= k < |s| :: IsSpace(s[k])
  }

  /** The C string a buffer holds: everything before the first NUL. */
  function CString(s: string): (r: string)
    ensures r <= s && '\0' !in r
    ensures |r| < |s| ==> s[|r|] == '\0'
  {
    if |s| == 0 || s[0] == '\0' then [] else [s[0]] + CString(s[1..])
  }

  /** A buffer without NUL is read whole. */
  lemma {:induction false} CStringNoNul(s: string)
    requires '\0' !in s
    ensures CString(s) == s
  {
    if |s| > 0 {
      CStringNoNul(s[1..]);
    }
  }

  // ---------------------------------------------------------------------
  // Whitespace-separated words, as `%s` reads them

  /** `s` with its leading separators skipped. */
  function SkipSpace(s: string): (r: string)
    ensures |r| <= |s|
  {
    if |s| > 0 && IsSpace(s[0]) then SkipSpace(s[1..]) else s
  }

  /** What is skipped is all separators, and what remains is the rest of `s`. */
  lemma {:induction false} SkipSpaceSpec(s: string)
    ensures var r := SkipSpace(s);
      && r == s[|s| - |r|..]
      && AllSpace(s[..|s| - |r|])
      && (|r| > 0 ==> !IsSpace(r[0]))
  {
    if |s| > 0 && IsSpace(s[0]) {
      SkipSpaceSpec(s[1..]);
    }
  }

  /** The longest separator-free prefix of `s`: one `%s` conversion. */
  function Word(s: string): (w: string)
    ensures |w| <= |s|
  {
    if |s| > 0 && !IsSpace(s[0]) then [s[0]] + Word(s[1..]) else []
  }

  /** `Word` reads a separator-free prefix and stops only at a separator. */
  lemma {:induction false} WordSpec(s: string)
    ensures var w := Word(s);
      && w <= s && SpaceFree(w)
      && (|w| < |s| ==> IsSpace(s[|w|]))
  {
    if |s| > 0 && !IsSpace(s[0]) {
      WordSpec(s[1..]);
    }
  }

  /** The words of `s`, in order: what repeated `%s` conversions read. */
  function Tokens(s: string): (r: seq<string>)
    decreases |s|
  {
    var t := SkipSpace(s);
    if |t| == 0 then []
    else
      var w := Word(t);
      [w] + Tokens(t[|w|..])
  }

  /** Every token is a non-empty word. */
  lemma {:induction false} TokensAreWords(s: string)
    ensures forall k | 0 <= k < |Tokens(s)| :: |Tokens(s)[k]| > 0 && SpaceFree(Tokens(s)[k])
    decreases |s|
  {
    var t := SkipSpace(s);
    if |t| > 0 {
      SkipSpaceSpec(s);
      WordSpec(t);
      TokensAreWords(t[|Word(t)|..]);
    }
  }

  /** A word followed by a separator run and more text reads as that word first. */
  lemma WordThenRest(w: string, sep: string, rest: string)
    requires |w| > 0 && SpaceFree(w) && |sep| > 0 && AllSpace(sep)
    ensures Tokens(w + sep + rest) == [w] + Tokens(rest)
  {
    var s := w + sep + rest;
    assert SkipSpace(s) == s;
    WordPrefix(w, sep + rest);
    assert s == w + (sep + rest);
    assert s[|w|..] == sep + rest;
    SkipSpacePrefix(sep, rest);
    assert Tokens(sep + rest) == Tokens(rest) by {
      assert SkipSpace(sep + rest) == SkipSpace(rest);
    }
  }

  /** `Word` stops exactly at the separator that ends `w`. */
  lemma {:induction false} WordPrefix(w: string, rest: string)
    requires SpaceFree(w) && (|rest| == 0 || IsSpace(rest[0]))
    ensures Word(w + rest) == w
  {
    if |w| > 0 {
      assert (w + rest)[1..] == w[1..] + rest;
      WordPrefix(w[1..], rest);
    } else {
      assert w + rest == rest;
    }
  }

  /** A separator run in front of `rest` is skipped whole. */
  lemma {:induction false} SkipSpacePrefix(sep: string, rest: string)
    requires AllSpace(sep)
    ensures SkipSpace(sep + rest) == SkipSpace(rest)
  {
    if |sep| > 0 {
      assert (sep + rest)[1..] == sep[1..] + rest;
      SkipSpacePrefix(sep[1..], rest);
    } else {
      assert sep + rest == rest;
    }
  }

  /** Words joined by single spaces. */
  function Unwords(ws: seq<string>): string {
    if |ws| == 0 then [] else if |ws| == 1 then ws[0] else ws[0] + " " + Unwords(ws[1..])
  }

  /** Splitting undoes joining, for non-empty separator-free words. */
  lemma {:induction false} TokensUnwords(ws: seq<string>)
    requires forall k | 0 <= k < |ws| :: |ws[k]| > 0 && SpaceFree(ws[k])
    ensures Tokens(Unwords(ws)) == ws
  {
    if |ws| == 1 {
      SingleWord(ws[0]);
    } else if |ws| > 1 {
      WordThenRest(ws[0], " ", Unwords(ws[1..]));
      TokensUnwords(ws[1..]);
    }
  }

  /** A separator-free string is read whole by `%s`. */
  lemma {:induction false} WordWhole(w: string)
    requires SpaceFree(w)
    ensures Word(w) == w
  {
    if |w| > 0 {
      WordWhole(w[1..]);
    }
  }

  /** A single word is one token. */
  lemma SingleWord(w: string)
    requires |w| > 0 && SpaceFree(w)
    ensures Tokens(w) == [w]
  {
    WordWhole(w);
    assert w[|w|..] == [];
  }

  // ---------------------------------------------------------------------
  // extract_url

  /**
   * `extract_url` with its ill-formed inputs refused: the URL is the
   * second word of a request whose first word is exactly `GET`.
   */
  function ExtractUrl(buffer: string): (r: Option<string>)
    ensures r.Some? <==> |Tokens(CString(buffer))| >= 2 && Tokens(CString(buffer))[0] == "GET"
    ensures r.Some? ==> r.value == Tokens(CString(buffer))[1]
    ensures r.Some? ==> |r.value| > 0 && SpaceFree(r.value)
  {
    var toks := Tokens(CString(buffer));
    TokensAreWords(CString(buffer));
    if |toks| >= 2 && toks[0] == "GET" then Some(toks[1]) else None
  }

  /** What `extract_url` returns, and what its `static` URL buffer then holds. */
  datatype Extracted = Extracted(url: Option<string>, kept: string)

  /**
   * `extract_url` as the source has it. The URL buffer is `static`, and
   * `sscanf` leaves it untouched when the request has only one word, so a
   * bare `GET` returns the URL of an earlier request. With no word at all
   * the method buffer is never written; that case is refused.
   */
  function ExtractUrlAsWritten(buffer: string, kept: string): (r: Extracted)
    ensures var toks := Tokens(CString(buffer));
      && (|toks| == 0 ==> r == Extracted(None, kept))
      && (|toks| == 1 ==> r == Extracted(if toks[0] == "GET" then Some(kept) else None, kept))
      && (|toks| >= 2 ==> r.kept == toks[1])
  {
    var toks := Tokens(CString(buffer));
    if |toks| == 0 then Extracted(None, kept)
    else
      var url := if |toks| >= 2 then toks[1] else kept;
      Extracted(if toks[0] == "GET" then Some(url) else None, url)
  }

  /** On a request line of two or more words the two agree. */
  lemma ExtractAgrees(buffer: string, kept: string)
    requires |Tokens(CString(buffer))| != 1
    ensures ExtractUrlAsWritten(buffer, kept).url == ExtractUrl(buffer)
  {
  }

  /**
   * A bare `GET` line is answered with the previous request's URL instead
   * of being refused.
   */
  lemma BareGetReusesUrl(kept: string)
    ensures ExtractUrlAsWritten("GET\r\n\r\n", kept) == Extracted(Some(kept), kept)
    ensures ExtractUrl("GET\r\n\r\n") == None
  {
    var b := "GET\r\n\r\n";
    CStringNoNul(b);
    assert b == "GET" + "\r\n\r\n" + [];
    WordThenRest("GET", "\r\n\r\n", []);
    assert Tokens(b) == ["GET"];
  }

  // ---------------------------------------------------------------------
  // The origin: sscanf(url, "http://%[^/]%s", host, path)

  datatype Origin = Origin(host: string, path: string)

  const Scheme: string := "http://"

  /** The longest prefix of `s` without `/`: one `%[^/]` conversion. */
  function UntilSlash(s: string): (h: string)
    ensures |h| <= |s|
  {
    if |s| > 0 && s[0] != '/' then [s[0]] + UntilSlash(s[1..]) else []
  }

  /** `%[^/]` reads a prefix without `/` and stops only at a `/`. */
  lemma {:induction false} UntilSlashSpec(s: string)
    ensures var h := UntilSlash(s);
      && h <= s && '/' !in h
      && (|h| < |s| ==> s[|h|] == '/')
  {
    if |s| > 0 && s[0] != '/' {
      UntilSlashSpec(s[1..]);
    }
  }

  /**
   * Host and path of an absolute `http` URL: the host runs up to the
   * first `/`, and the path is the next word after it. A URL without the
   * scheme, with an empty host or with nothing after the host is refused.
   */
  function SplitUrl(url: string): (r: Option<Origin>)
    ensures r.Some? ==> |r.value.host| > 0 && '/' !in r.value.host && |r.value.path| > 0 && SpaceFree(r.value.path)
  {
    if |url| < |Scheme| || url[..|Scheme|] != Scheme then None
    else
      var rest := url[|Scheme|..];
      var host := UntilSlash(rest);
      var path := Word(SkipSpace(rest[|host|..]));
      UntilSlashSpec(rest);
      WordSpec(SkipSpace(rest[|host|..]));
      if |host| == 0 || |path| == 0 then None else Some(Origin(host, path))
  }

  /** An origin written back as a URL. */
  function JoinUrl(o: Origin): string {
    Scheme + o.host + o.path
  }

  /** A word-shaped URL that splits is exactly scheme, host and path. */
  lemma SplitJoins(url: string)
    requires SpaceFree(url) && SplitUrl(url).Some?
    ensures JoinUrl(SplitUrl(url).value) == url
    ensures SplitUrl(url).value.path[0] == '/'
  {
    var rest := url[|Scheme|..];
    var host := UntilSlash(rest);
    var tail := rest[|host|..];
    assert url == Scheme + host + tail by {
      UntilSlashSpec(rest);
      assert url == url[..|Scheme|] + rest;
    }
    assert |tail| > 0 && tail[0] == '/' by {
      UntilSlashSpec(rest);
    }
    assert SpaceFree(tail) by {
      SpaceFreeSuffix(url, |Scheme| + |host|);
      assert tail == url[|Scheme| + |host|..];
    }
    assert SkipSpace(tail) == tail;
    WordWhole(tail);
  }

  /** A suffix of a separator-free string is separator-free. */
  lemma SpaceFreeSuffix(s: string, i: nat)
    requires SpaceFree(s) && i <= |s|
    ensures SpaceFree(s[i..])
  {
    forall k | 0 <= k < |s| - i ensures !IsSpace(s[i..][k]) {
      assert s[i..][k] == s[i + k];
    }
  }

  /** A host without `/` and a path starting with `/` split back out. */
  lemma JoinSplits(o: Origin)
    requires |o.host| > 0 && '/' !in o.host
    requires |o.path| > 0 && o.path[0] == '/' && SpaceFree(o.path)
    ensures SplitUrl(JoinUrl(o)) == Some(o)
  {
    var url := JoinUrl(o);
    assert url[..|Scheme|] == Scheme;
    var rest := url[|Scheme|..];
    assert rest == o.host + o.path;
    UntilSlashPrefix(o.host, o.path);
    assert rest[|o.host|..] == o.path;
    assert SkipSpace(o.path) == o.path;
    WordWhole(o.path);
  }

  /** `%[^/]` stops at the `/` that ends `h`. */
  lemma {:induction false} UntilSlashPrefix(h: string, rest: string)
    requires '/' !in h && (|rest| == 0 || rest[0] == '/')
    ensures UntilSlash(h + rest) == h
  {
    if |h| > 0 {
      assert (h + rest)[1..] == h[1..] + rest;
      UntilSlashPrefix(h[1..], rest);
    } else {
      assert h + rest == rest;
    }
  }

  // ---------------------------------------------------------------------
  // The upstream request

  /** `snprintf` into a buffer of `size` bytes: at most `size - 1` characters survive. */
  function Snprintf(text: string, size: nat): (r: string)
    requires size > 0
    ensures r <= text && |r| <= size - 1
    ensures |text| < size ==> r == text
    ensures |text| >= size ==> |r| == size - 1
  {
    if |text| < size then text else text[..size - 1]
  }

  /** The HTTP/1.0 request the proxy formats, before truncation. */
  function RequestText(o: Origin): string {
    "GET " + o.path + " HTTP/1.0\r\nHost: " + o.host + "\r\nConnection: close\r\n\r\n"
  }

  /** The request as it leaves `snprintf(buffer, BUFFER_SIZE, ...)`. */
  function UpstreamRequest(o: Origin): (r: string)
    ensures r <= RequestText(o) && |r| < BufferSize
  {
    Snprintf(RequestText(o), BufferSize)
  }

  /** 44 characters of the request are fixed text around host and path. */
  lemma RequestTextLength(o: Origin)
    ensures |RequestText(o)| == 44 + |o.host| + |o.path|
  {
  }

  /**
   * A URL short enough for the URL buffer never makes the upstream
   * request overflow its buffer, so nothing is cut off.
   */
  lemma ShortUrlNotTruncated(url: string)
    requires |url| < 256 && SplitUrl(url).Some?
    ensures UpstreamRequest(SplitUrl(url).value) == RequestText(SplitUrl(url).value)
  {
    var o := SplitUrl(url).value;
    RequestTextLength(o);
    var rest := url[|Scheme|..];
    var host := UntilSlash(rest);
    var tail := SkipSpace(rest[|host|..]);
    assert |host| + |tail| <= |rest|;
  }

  /** A request line `GET <path><separator>...` yields the path. */
  lemma GetLineExtracts(path: string, rest: string)
    requires |path| > 0 && SpaceFree(path) && '\0' !in path
    requires |rest| > 0 && IsSpace(rest[0]) && '\0' !in rest
    ensures ExtractUrl("GET " + path + rest) == Some(path)
  {
    var line := "GET " + path + rest;
    var after := path + [rest[0]] + rest[1..];
    assert line == "GET" + " " + after by {
      assert rest == [rest[0]] + rest[1..];
    }
    assert '\0' !in line by {
      assert line == "GET " + (path + rest);
    }
    CStringNoNul(line);
    assert Tokens(line) == ["GET"] + Tokens(after) by {
      WordThenRest("GET", " ", after);
    }
    WordThenRest(path, [rest[0]], rest[1..]);
  }

  /**
   * A request line whose first word, after any leading separators, is not
   * exactly `GET` yields no URL, whatever follows it.
   */
  lemma NonGetRefused(lead: string, verb: string, rest: string)
    requires AllSpace(lead) && |verb| > 0 && SpaceFree(verb) && verb != "GET"
    requires |rest| == 0 || IsSpace(rest[0])
    requires '\0' !in lead && '\0' !in verb && '\0' !in rest
    ensures ExtractUrl(lead + verb + rest) == None
  {
    var line := lead + verb + rest;
    assert line == lead + (verb + rest);
    assert '\0' !in line;
    CStringNoNul(line);
    SkipSpacePrefix(lead, verb + rest);
    assert SkipSpace(verb + rest) == verb + rest by {
      assert (verb + rest)[0] == verb[0];
    }
    WordPrefix(verb, rest);
    assert Tokens(line)[0] == verb;
  }

  /**
   * The request sent upstream is itself a well-formed GET for the path:
   * reading it the way `extract_url` reads a request gives the path back.
   */
  lemma UpstreamRequestExtracts(o: Origin)
    requires |o.path| > 0 && SpaceFree(o.path) && '\0' !in o.path && '\0' !in o.host
    requires 44 + |o.host| + |o.path| < BufferSize
    ensures ExtractUrl(UpstreamRequest(o)) == Some(o.path)
  {
    RequestTextLength(o);
    var rest := " HTTP/1.0\r\nHost: " + o.host + "\r\nConnection: close\r\n\r\n";
    assert RequestText(o) == "GET " + o.path + rest;
    assert '\0' !in rest;
    GetLineExtracts(o.path, rest);
  }
}

=== FILE: seqs.dfy ===
/** Small, generic facts about sequences used by the cache and queue models. */
module Optional {

  /** The model's stand-in for a nullable pointer or an absent value. */
  datatype Option<+T> = None | Some(value: T)
}

module Seqs {

  /** No element occurs twice. */
  ghost predicate NoDup<T>(s: seq<T>) {
    forall i, j | 0 <= i < j < |s| :: s[i] != s[j]
  }

  /** The set of elements of a sequence. */
  ghost function Members<T>(s: seq<T>): set<T> {
    set x | x in s
  }

  /** The sequence `s` with the element at position `p` taken out. */
  function RemoveAt<T>(s: seq<T>, p: nat): (r: seq<T>)
    requires p < |s|
    ensures |r| == |s| - 1
    ensures forall k | 0 <= k < p :: r[k] == s[k]
    ensures forall k | p <= k < |r| :: r[k] == s[k + 1]
  {
    s[..p] + s[p + 1..]
  }

  /** The sequence `s` with the element at position `p` moved to the front. */
  function Promote<T>(s: seq<T>, p: nat): (r: seq<T>)
    requires p < |s|
    ensures |r| == |s| && r[0] == s[p]
    ensures forall k | 1 <= k <= p :: r[k] == s[k - 1]
    ensures forall k | p < k < |s| :: r[k] == s[k]
  {
    [s[p]] + s[..p] + s[p + 1..]
  }

  /** Promotion only reorders: same elements, still duplicate-free. */
  lemma PromotePermutes<T>(s: seq<T>, p: nat)
    requires p < |s|
    ensures forall x :: x in Promote(s, p) <==> x in s
    ensures NoDup(s) ==> NoDup(Promote(s, p))
  {
    var o := Promote(s, p);
    assert o == [s[p]] + s[..p] + s[p + 1..];
    assert s == s[..p] + [s[p]] + s[p + 1..];
    if NoDup(s) {
      forall a, b | 0 <= a < b < |s| ensures o[a] != o[b] {
        var a' := if a == 0 then p else if a <= p then a - 1 else a;
        var b' := if b == 0 then p else if b <= p then b - 1 else b;
        assert o[a] == s[a'] && o[b] == s[b'];
      }
    }
  }

  /** Removal keeps the other elements, and no duplicates appear. */
  lemma RemoveAtMembers<T>(s: seq<T>, p: nat)
    requires p < |s|
    ensures forall x :: x in RemoveAt(s, p) ==> x in s
    ensures NoDup(s) ==> NoDup(RemoveAt(s, p)) && s[p] !in RemoveAt(s, p)
    ensures forall x :: x in s && x != s[p] ==> x in RemoveAt(s, p)
  {
    assert s == s[..p] + [s[p]] + s[p + 1..];
    var r := RemoveAt(s, p);
    if NoDup(s) {
      forall a, b | 0 <= a < b < |r| ensures r[a] != r[b] {
        var a' := if a < p then a else a + 1;
        var b' := if b < p then b else b + 1;
        assert r[a] == s[a'] && r[b] == s[b'];
      }
      forall k | 0 <= k < |r| ensures r[k] != s[p] {
        var k' := if k < p then k else k + 1;
        assert r[k] == s[k'];
      }
    }
  }

  /** A duplicate-free sequence has as many distinct elements as positions. */
  lemma {:induction false} NoDupCard<T>(s: seq<T>)
    requires NoDup(s)
    ensures |Members(s)| == |s|
  {
    if |s| > 0 {
      var t := s[..|s| - 1];
      var x := s[|s| - 1];
      assert NoDup(t);
      NoDupCard(t);
      assert Members(s) == Members(t) + {x} by {
        assert s == t + [x];
      }
    }
  }

  /** The indices 0, ..., n-1 in increasing order. */
  function Upto(n: nat): (r: seq<nat>)
    ensures |r| == n && NoDup(r)
    ensures forall k | 0 <= k < n :: r[k] == k
  {
    seq(n, k => k)
  }

  lemma {:induction false} SubsetCard<T>(a: set<T>, b: set<T>)
    requires a <= b
    ensures |a| <= |b|
  {
    if a != {} {
      var x :| x in a;
      SubsetCard(a - {x}, b - {x});
    }
  }

  /**
   * Pigeonhole: a duplicate-free sequence of indices below `n` has at most
   * `n` elements. This bounds the number of live cache entries.
   */
  lemma NoDupBound(s: seq<nat>, n: nat)
    requires NoDup(s)
    requires forall k | 0 <= k < |s| :: s[k] < n
    ensures |s| <= n
  {
    NoDupCard(s);
    NoDupCard(Upto(n));
    assert Members(s) <= Members(Upto(n)) by {
      forall x | x in Members(s) ensures x in Members(Upto(n)) {
        assert Upto(n)[x] == x;
      }
    }
    SubsetCard(Members(s), Members(Upto(n)));
  }

  /** Concatenation of a sequence of strings (or any sequences). */
  function Concat<T>(parts: seq<seq<T>>): (r: seq<T>)
  {
    if |parts| == 0 then [] else parts[0] + Concat(parts[1..])
  }
}

=== FILE: work_queue.dfy ===
/**
 * The thread pool's work queue (`src/thread_pool.c`): a circular buffer of
 * client sockets that doubles its capacity when full, refined to the
 * abstract sequence of queued sockets. Locks and the condition variable
 * are left out; a `dequeue` that would wait reports `Blocked`.
 */
module WorkQueue {

  const InitialCapacity: nat := 16

  /** The `thread_pool` fields the queue uses. */
  datatype Pool = Pool(buf: seq<int>, front: nat, rear: nat, size: nat, capacity: nat, stop: bool)

  /** What a `dequeue` call does: return a socket (or -1), or wait. */
  datatype Outcome = Value(v: int) | Blocked

  datatype Dequeued = Dequeued(pool: Pool, out: Outcome)

  /**
   * `x % m` for `x < 2 * m`, written without division: an index at most
   * one lap past the end of the buffer.
   */
  function Wrap(x: nat, m: nat): nat
    requires x < 2 * m
  {
    if x < m then x else x - m
  }

  /** The C `%` on such an index is `Wrap`. */
  lemma ModIsWrap(x: nat, m: nat)
    requires 0 < m && x < 2 * m
    ensures x % m == Wrap(x, m)
  {
    if x < m {
      assert x == 0 * m + x;
    } else {
      assert x == 1 * m + (x - m);
    }
  }

  /**
   * The representation invariant: the buffer has `capacity` cells, the
   * indices are in range, and `rear` is `size` cells after `front`,
   * modulo `capacity`.
   */
  predicate Valid(p: Pool) {
    && 0 < p.capacity
    && |p.buf| == p.capacity
    && p.front < p.capacity
    && p.size <= p.capacity
    && p.rear == Wrap(p.front + p.size, p.capacity)
  }

  /** The abstract queue: the `size` cells from `front` on, oldest first. */
  function Elems(p: Pool): (r: seq<int>)
    requires Valid(p)
    ensures |r| == p.size
    ensures forall k | 0 <= k < p.size :: r[k] == p.buf[Wrap(p.front + k, p.capacity)]
  {
    seq(p.size, k requires 0 <= k < p.size => p.buf[Wrap(p.front + k, p.capacity)])
  }

  /** The `k`-th queued socket sits `k` cells after `front`, modulo `capacity`. */
  lemma ElemsAt(p: Pool, k: nat)
    requires Valid(p) && k < p.size
    ensures Elems(p)[k] == p.buf[(p.front + k) % p.capacity]
  {
    ModIsWrap(p.front + k, p.capacity);
  }

  /** `n` zeroed cells: fresh buffer space, never read before it is written. */
  function Zeros(n: nat): (r: seq<int>)
    ensures |r| == n
  {
    seq(n, _ => 0)
  }

  /** `init_thread_pool`. */
  function InitPool(): (p: Pool)
    ensures Valid(p) && Elems(p) == [] && !p.stop
    ensures p.capacity == InitialCapacity && p.front == 0 && p.rear == 0
  {
    Pool(Zeros(InitialCapacity), 0, 0, 0, InitialCapacity, false)
  }

  /**
   * `resize_queue` with the wrap-around copy guarded by "the live window
   * wraps": it is non-empty and `rear` is not after `front`. The cells
   * before `rear` move to just after the old capacity.
   */
  function Resize(p: Pool): (r: Pool)
    requires Valid(p)
    ensures Valid(r) && Elems(r) == Elems(p)
    ensures r.capacity == 2 * p.capacity && r.size == p.size && r.stop == p.stop && r.front == p.front
  {
    var cap := p.capacity;
    if 0 < p.size && p.rear <= p.front then
      var r := Pool(p.buf + p.buf[..p.rear] + Zeros(cap - p.rear), p.front, p.rear + cap, p.size, 2 * cap, p.stop);
      ResizeWrapped(p, r);
      r
    else
      var r := p.(buf := p.buf + Zeros(cap), capacity := 2 * cap);
      ResizeUnwrapped(p, r);
      r
  }

  lemma ResizeWrapped(p: Pool, r: Pool)
    requires Valid(p) && 0 < p.size && p.rear <= p.front
    requires r == Pool(p.buf + p.buf[..p.rear] + Zeros(p.capacity - p.rear), p.front, p.rear + p.capacity, p.size, 2 * p.capacity, p.stop)
    ensures Valid(r) && Elems(r) == Elems(p)
  {
    var cap := p.capacity;
    assert p.rear == p.front + p.size - cap;
    forall k | 0 <= k < p.size ensures Elems(r)[k] == Elems(p)[k] {
      if p.front + k >= cap {
        assert r.buf[p.front + k] == p.buf[..p.rear][p.front + k - cap];
      }
    }
  }

  lemma ResizeUnwrapped(p: Pool, r: Pool)
    requires Valid(p) && !(0 < p.size && p.rear <= p.front)
    requires r == p.(buf := p.buf + Zeros(p.capacity), capacity := 2 * p.capacity)
    ensures Valid(r) && Elems(r) == Elems(p)
  {
    assert p.front + p.size < p.capacity || p.size == 0;
    forall k | 0 <= k < p.size ensures Elems(r)[k] == Elems(p)[k] {
      assert r.buf[p.front + k] == p.buf[p.front + k];
    }
  }

  /** `enqueue`: grow when full, then write at `rear` and advance it. */
  function Enqueue(p: Pool, socket: int): (r: Pool)
    requires Valid(p)
    ensures Valid(r) && Elems(r) == Elems(p) + [socket]
    ensures r.size == p.size + 1 && r.stop == p.stop && r.front == p.front
    ensures r.capacity == if p.size == p.capacity then 2 * p.capacity else p.capacity
  {
    var q := if p.size == p.capacity then Resize(p) else p;
    var r := q.(buf := q.buf[q.rear := socket], rear := (q.rear + 1) % q.capacity, size := q.size + 1);
    EnqueueStep(q, socket, r);
    r
  }

  lemma EnqueueStep(q: Pool, socket: int, r: Pool)
    requires Valid(q) && q.size < q.capacity
    requires r == q.(buf := q.buf[q.rear := socket], rear := (q.rear + 1) % q.capacity, size := q.size + 1)
    ensures Valid(r) && Elems(r) == Elems(q) + [socket]
  {
    ModIsWrap(q.rear + 1, q.capacity);
    forall k | 0 <= k < q.size ensures Elems(r)[k] == Elems(q)[k] {
      assert Wrap(q.front + k, q.capacity) != q.rear;
    }
  }

  /**
   * The sockets `proxy_start` accepts, enqueued one after another: they
   * join the queue in arrival order, and the buffer grows only once the
   * queue is full.
   */
  function EnqueueAll(p: Pool, sockets: seq<int>): (r: Pool)
    requires Valid(p)
    ensures Valid(r) && Elems(r) == Elems(p) + sockets
    ensures r.front == p.front && r.stop == p.stop
    ensures p.size + |sockets| <= p.capacity ==> r.capacity == p.capacity
    decreases |sockets|
  {
    if |sockets| == 0 then p
    else
      var r := EnqueueAll(Enqueue(p, sockets[0]), sockets[1..]);
      assert Elems(p) + sockets == Elems(p) + [sockets[0]] + sockets[1..];
      r
  }

  /**
   * `dequeue`: with `stop` set it returns -1 and leaves the queue alone;
   * on an empty queue it waits; otherwise it returns the oldest socket.
   */
  function Dequeue(p: Pool): (d: Dequeued)
    requires Valid(p)
    ensures p.stop ==> d == Dequeued(p, Value(-1))
    ensures !p.stop && p.size == 0 ==> d == Dequeued(p, Blocked)
    ensures !p.stop && p.size > 0 ==>
      && d.out == Value(Elems(p)[0])
      && Valid(d.pool) && Elems(d.pool) == Elems(p)[1..]
      && d.pool.capacity == p.capacity && !d.pool.stop
  {
    if p.stop then Dequeued(p, Value(-1))
    else if p.size == 0 then Dequeued(p, Blocked)
    else
      var r := p.(front := (p.front + 1) % p.capacity, size := p.size - 1);
      DequeueStep(p, r);
      Dequeued(r, Value(p.buf[p.front]))
  }

  lemma DequeueStep(p: Pool, r: Pool)
    requires Valid(p) && p.size > 0
    requires r == p.(front := (p.front + 1) % p.capacity, size := p.size - 1)
    ensures Valid(r) && Elems(r) == Elems(p)[1..]
  {
    ModIsWrap(p.front + 1, p.capacity);
    forall k | 0 <= k < r.size ensures Elems(r)[k] == Elems(p)[k + 1] {
    }
  }

  /** The shutdown flag raised by `stop_thread_pool`. */
  function Stop(p: Pool): (r: Pool)
    requires Valid(p)
    ensures Valid(r) && r.stop && Elems(r) == Elems(p)
  {
    p.(stop := true)
  }

  /**
   * The loop of `thread_function`: dequeue and handle sockets until
   * `dequeue` returns -1. Handling is left to the request handler; here
   * the loop reports the sockets it would hand over, in order. A
   * `Blocked` dequeue ends the run with the worker still waiting.
   * Sockets in the queue are never negative: `proxy_start` enqueues only
   * accepted sockets.
   */
  method RunWorker(p: Pool) returns (q: Pool, handled: seq<int>, exited: bool)
    requires Valid(p)
    requires forall k | 0 <= k < p.size :: Elems(p)[k] >= 0
    ensures exited <==> p.stop
    ensures p.stop ==> q == p && handled == []
    ensures !p.stop ==> handled == Elems(p) && Valid(q) && Elems(q) == [] && !q.stop
  {
    q := p;
    handled := [];
    exited := false;
    var waiting := false;
    while !exited && !waiting
      invariant Valid(q) && q.stop == p.stop
      invariant handled + Elems(q) == Elems(p)
      invariant p.stop ==> q == p && handled == []
      invariant exited ==> p.stop
      invariant waiting ==> !p.stop && Elems(q) == []
      invariant forall k | 0 <= k < q.size :: Elems(q)[k] >= 0
      decreases !exited && !waiting, q.size
    {
      var d := Dequeue(q);
      match d.out
      case Blocked =>
        waiting := true;
      case Value(v) =>
        if v == -1 {
          exited := true;
        } else {
          assert Elems(q)[0] == Elems(p)[|handled|];
          handled := handled + [v];
          q := d.pool;
        }
    }
  }
}

=== FILE: work_queue_as_written.dfy ===
/**
 * The work queue exactly as `src/thread_pool.c` grows it. `resize_queue`
 * copies the wrapped-around cells only when `front > rear`, but it is
 * called only on a full queue, where `rear == front`: the copy never
 * happens, and the next `enqueue` writes over the oldest queued socket.
 */
module WorkQueueAsWritten {
  import opened Seqs
  import opened WorkQueue

  /**
   * What `dequeue` and `enqueue` need to index the buffer safely; unlike
   * `Valid`, it says nothing about where `rear` is.
   */
  predicate Shaped(p: Pool) {
    0 < p.capacity && |p.buf| == p.capacity && p.front < p.capacity && p.rear < p.capacity
  }

  /** `resize_queue` with the source's guard `front > rear`. */
  function ResizeAsWritten(p: Pool): (r: Pool)
    requires Shaped(p)
    ensures |r.buf| == r.capacity == 2 * p.capacity && r.front == p.front && r.rear < r.capacity
    ensures r.size == p.size && r.stop == p.stop
  {
    var cap := p.capacity;
    if p.front > p.rear then
      Pool(p.buf + p.buf[..p.rear] + Zeros(cap - p.rear), p.front, p.rear + cap, p.size, 2 * cap, p.stop)
    else
      p.(buf := p.buf + Zeros(cap), capacity := 2 * cap)
  }

  /** `enqueue` on top of `ResizeAsWritten`. */
  function EnqueueAsWritten(p: Pool, socket: int): (r: Pool)
    requires Shaped(p)
    ensures Shaped(r) && r.size == p.size + 1 && r.front == p.front && r.stop == p.stop
  {
    var q := if p.size == p.capacity then ResizeAsWritten(p) else p;
    q.(buf := q.buf[q.rear := socket], rear := (q.rear + 1) % q.capacity, size := q.size + 1)
  }

  /** `dequeue` on any buffer it can index. */
  function DequeueAsWritten(p: Pool): (d: Dequeued)
    requires Shaped(p)
    ensures p.stop ==> d.out == Value(-1)
    ensures !p.stop && p.size == 0 ==> d.out == Blocked
    ensures !p.stop && p.size > 0 ==> d.out == Value(p.buf[p.front])
  {
    if p.stop then Dequeued(p, Value(-1))
    else if p.size == 0 then Dequeued(p, Blocked)
    else Dequeued(p.(front := (p.front + 1) % p.capacity, size := p.size - 1), Value(p.buf[p.front]))
  }

  /** On a well-formed queue the source's `dequeue` is the model's. */
  lemma DequeueAgrees(p: Pool)
    requires Valid(p)
    ensures Shaped(p) && DequeueAsWritten(p) == Dequeue(p)
  {
    ModIsWrap(p.front + p.size, p.capacity);
  }

  /** Below capacity no resize happens, so the two `enqueue`s agree. */
  lemma EnqueueAgreesBelowCapacity(p: Pool, socket: int)
    requires Valid(p) && p.size < p.capacity
    ensures Shaped(p) && EnqueueAsWritten(p, socket) == Enqueue(p, socket)
  {
    ModIsWrap(p.front + p.size, p.capacity);
  }

  /** On a full, well-formed queue the guard of the wrap-around copy is false. */
  lemma ResizeGuardDead(p: Pool)
    requires Valid(p) && p.size == p.capacity
    ensures Shaped(p) && !(p.front > p.rear)
    ensures ResizeAsWritten(p) == p.(buf := p.buf + Zeros(p.capacity), capacity := 2 * p.capacity)
  {
  }

  /**
   * Enqueueing onto a full queue writes the new socket over the oldest
   * one, which is lost, and the queue is no longer well formed: the next
   * `dequeue` returns the newest socket, not the oldest.
   */
  lemma FullEnqueueOverwritesOldest(p: Pool, socket: int)
    requires Valid(p) && p.size == p.capacity
    ensures Shaped(p)
    ensures var r := EnqueueAsWritten(p, socket);
      && !Valid(r)
      && r.buf[r.front] == socket
      && (!p.stop ==> DequeueAsWritten(r).out == Value(socket))
      && (!p.stop && socket != Elems(p)[0] ==> DequeueAsWritten(r).out != Dequeue(p).out)
  {
    ResizeGuardDead(p);
    var q := ResizeAsWritten(p);
    ModIsWrap(q.rear + 1, q.capacity);
    var r := q.(buf := q.buf[q.rear := socket], rear := q.rear + 1, size := q.size + 1);
    assert EnqueueAsWritten(p, socket) == r;
    assert r.rear != Wrap(r.front + r.size, r.capacity);
    assert Elems(p)[0] == p.buf[p.front];
  }

  /**
   * Sixteen clients fill the initial queue; the seventeenth, socket 16,
   * overwrites socket 0, and a worker's first `dequeue` returns 16.
   */
  lemma SeventeenthClientLosesFirst()
    ensures var full := EnqueueAll(InitPool(), Upto(16));
      && Valid(full) && full.size == full.capacity == InitialCapacity && Elems(full)[0] == 0
      && DequeueAsWritten(EnqueueAsWritten(full, 16)).out == Value(16)
      && Dequeue(Enqueue(full, 16)).out == Value(0)
  {
    var full := EnqueueAll(InitPool(), Upto(16));
    FullEnqueueOverwritesOldest(full, 16);
  }
}
